=== FILE: README.md ===
# ECMWF variable registry

This project models the registry of ECMWF open-data forecast variables used
by the weather API's ECMWF downloader and reader, in
`Sources/App/Ecmwf/EcmwfVariable.swift`. The registry is a closed enumeration
of 86 variables. Each attribute is a total lookup table over it:

- storage unit;
- vertical level (pressure in hPa, or height in metres);
- GRIB short name;
- storage scale factor;
- optional affine `(multiply, add)` conversion from the archive's native unit;
- temporal-interpolation policy;
- ensemble download policy;
- "store previous forecast" flag;
- elevation-correction flag;
- file name and level of the time series.

The file also declares the enumeration of derived variables, whose only
behaviour is that none of them needs an offset correction when mixed with
another model.

Files:

- `optional.dfy`: `Option`, for Swift's optional values.
- `ecmwf_types.dfy`: the value types the tables are written in:
  - units;
  - interpolation policy;
  - ensemble policy;
  - affine conversion, with its inverse;
  - reference tables keyed by unit: `ConversionFor` and `InterpolationFor`.
- `ecmwf_variable.dfy`: the enumeration and one `match` per table, in the
  source's order. It also holds an independent view of the same data, used
  as the partner of the tables:
  - `FamilyOf`: the quantity family of a pressure-level variable;
  - `PressureMember`: the member of a family at a standard level;
  - per-quantity tables (`ShortName`, `QuantityUnit`, `QuantityScaleFactor`);
  - literal sets of the variables each flag selects.
- `ecmwf_pressure_levels.dfy`: each of the eight quantity families covers the
  nine standard pressure levels one-to-one.
- `ecmwf_properties.dfy`: the other tables agree with one another. Covered:
  - per-family metadata;
  - conversion and interpolation follow from the unit;
  - the ensemble and previous-forecast classes;
  - elevation correction.
- `ecmwf_names.dfy`: a decoder from raw names back to variables. Decoding
  the name of any variable gives that variable again, so no two variables
  share a time-series file.
- `ecmwf_variable_derived.dfy`: the derived-variable enumeration.

Swift `Float` coefficients are modelled as exact `real`s: `-273.15`, and
`1/100` as `0.01`.

## Model

| member | source | states |
|---|---|---|
| EcmwfVariables.StorePreviousForecast | Sources/App/Ecmwf/EcmwfVariable.swift:102-113 | the previous run is kept for exactly temperature_2m, relative_humidity_1000hPa, precipitation, pressure_msl, cloud_cover and the two 10 m wind components |
| EcmwfVariables.IncludeInEnsemble | Sources/App/Ecmwf/EcmwfVariable.swift:116-162 | download-and-process is returned for exactly the 15 listed ensemble variables |
| EcmwfVariables.IsElevationCorrectable | Sources/App/Ecmwf/EcmwfVariable.swift:164-166 | true for exactly temperature_2m, surface_temperature and soil_temperature_0_to_7cm |
| EcmwfNames.NameRoundTrip | Sources/App/Ecmwf/EcmwfVariable.swift:174-176 | the raw name of every variable decodes back to that variable, so the name identifies the variable |
| EcmwfNames.OmFileNamesDistinct | Sources/App/Ecmwf/EcmwfVariable.swift:170-172 | every variable has a time-series file of its own: two variables with the same file name are the same variable |
| EcmwfVariables.RequiresOffsetCorrectionForMixing | Sources/App/Ecmwf/EcmwfVariable.swift:178-180 | no ECMWF variable needs an offset correction when mixed |
| EcmwfVariables.GribName | Sources/App/Ecmwf/EcmwfVariable.swift:373-466 | the GRIB short name is absent exactly for the four cloud-cover variables, which are computed rather than read |
| EcmwfVariables.ScaleFactor | Sources/App/Ecmwf/EcmwfVariable.swift:468-561 | every scale factor is strictly positive and one of 1, 10, 20, 100 |
| EcmwfVariables.MultiplyAdd | Sources/App/Ecmwf/EcmwfVariable.swift:563-599 | whenever a conversion is declared its factor is non-zero, so it is invertible |
| EcmwfVariables.Interpolation | Sources/App/Ecmwf/EcmwfVariable.swift:601-620 | backwards summation exactly for precipitation and runoff; any bounds given are 0...100 |
| EcmwfPressureLevels.LevelIdentifiesMember | Sources/App/Ecmwf/EcmwfVariable.swift:277-371 | every pressure-level variable sits at one of the nine levels of `pressure_levels`, and is the member of its family at that level |
| EcmwfPressureLevels.MemberAtEveryLevel | Sources/App/Ecmwf/EcmwfVariable.swift:168 | every level of `pressure_levels` has, for every quantity, a member of that family whose level is that level |
| EcmwfPressureLevels.LevelInjectiveInFamily | Sources/App/Ecmwf/EcmwfVariable.swift:277-371 | two members of one family with the same level are the same variable |
| EcmwfPressureLevels.FamilyIsMembersAtLevels | Sources/App/Ecmwf/EcmwfVariable.swift:277-371 | a variable belongs to a family exactly when it is that family's member at some standard level (both directions) |
| EcmwfProperties.SingleLevelHeights | Sources/App/Ecmwf/EcmwfVariable.swift:277-371 | the level is 10 for the 10 m winds, 2 for temperature_2m, 0 for the top soil layer and absent for every other single-level variable |
| EcmwfProperties.LevelsAreStandard | Sources/App/Ecmwf/EcmwfVariable.swift:277-371 | every level is a standard pressure level or one of 10, 2 and 0 |
| EcmwfProperties.FamilySharesUnit | Sources/App/Ecmwf/EcmwfVariable.swift:182-275 | every level of a quantity has the quantity's unit |
| EcmwfProperties.FamilySharesGribName | Sources/App/Ecmwf/EcmwfVariable.swift:373-466 | every level of a quantity carries the quantity's short name (gh, v, u, t, r, q, vo, d) |
| EcmwfProperties.FamilySharesScaleFactor | Sources/App/Ecmwf/EcmwfVariable.swift:468-561 | every level of a quantity has the quantity's scale factor |
| EcmwfProperties.FamilySharesMetadata | Sources/App/Ecmwf/EcmwfVariable.swift:182-561 | two levels of one quantity agree on unit, GRIB short name and scale factor |
| EcmwfProperties.ShortNamesDistinct | Sources/App/Ecmwf/EcmwfVariable.swift:373-466 | distinct quantities have distinct short names |
| EcmwfProperties.GribNameIdentifiesFamily | Sources/App/Ecmwf/EcmwfVariable.swift:373-466 | two pressure-level variables have the same short name exactly when they belong to the same quantity |
| EcmwfProperties.SingleLevelGribNameIsUnique | Sources/App/Ecmwf/EcmwfVariable.swift:373-466 | the GRIB short name of a single-level variable is carried by no other variable |
| EcmwfProperties.GribNameAndLevelIdentify | Sources/App/Ecmwf/EcmwfVariable.swift:277-466 | across all 86 variables, the GRIB short name and the level together identify the variable, so a decoded field maps to exactly one variable |
| EcmwfProperties.MillimetreFields | Sources/App/Ecmwf/EcmwfVariable.swift:182-275 | the millimetre fields are exactly precipitation and runoff |
| EcmwfProperties.PercentageFields | Sources/App/Ecmwf/EcmwfVariable.swift:182-275 | the percentage fields are exactly the four cloud covers and the relative-humidity levels |
| EcmwfProperties.HectopascalFields | Sources/App/Ecmwf/EcmwfVariable.swift:182-275 | the hectopascal fields are exactly surface_pressure and pressure_msl |
| EcmwfProperties.GramPerKilogramFields | Sources/App/Ecmwf/EcmwfVariable.swift:182-275 | the gram-per-kilogram fields are exactly the specific-humidity levels |
| EcmwfProperties.CelsiusFields | Sources/App/Ecmwf/EcmwfVariable.swift:182-275 | the Celsius fields are exactly the temperature levels, temperature_2m, surface_temperature and soil_temperature_0_to_7cm |
| EcmwfProperties.MetreFields | Sources/App/Ecmwf/EcmwfVariable.swift:182-275 | the fields in metres are exactly the geopotential-height levels |
| EcmwfProperties.MetrePerSecondFields | Sources/App/Ecmwf/EcmwfVariable.swift:182-275 | the fields in metres per second are exactly the U- and V-wind levels and the two 10 m wind components |
| EcmwfProperties.KilogramPerSquareMetreFields | Sources/App/Ecmwf/EcmwfVariable.swift:182-275 | the only field in kilograms per square metre is total_column_integrated_water_vapour |
| EcmwfProperties.PerSecondFields | Sources/App/Ecmwf/EcmwfVariable.swift:182-275 | the fields per second are exactly the relative-vorticity and divergence levels |
| EcmwfProperties.InterpolationMatchesUnit | Sources/App/Ecmwf/EcmwfVariable.swift:601-620 | the interpolation of every variable is the one its unit calls for: millimetres summed backwards, percentages clamped to 0...100, the rest unbounded Hermite |
| EcmwfProperties.MultiplyAddMatchesUnit | Sources/App/Ecmwf/EcmwfVariable.swift:563-599 | the conversion of every variable is the one its unit calls for: Kelvin for Celsius, Pascal for hectopascal, a factor 1000 for millimetres and g/kg, none otherwise |
| EcmwfProperties.InterpolationFollowsUnit | Sources/App/Ecmwf/EcmwfVariable.swift:601-620 | backwards summation exactly for precipitation and runoff; bounded Hermite exactly for cloud cover and relative humidity; unbounded Hermite for all others |
| EcmwfProperties.MultiplyAddFollowsUnit | Sources/App/Ecmwf/EcmwfVariable.swift:563-599 | Kelvin-to-Celsius exactly for the Celsius fields; 1/100 exactly for the two surface pressures; 1000 exactly for precipitation, runoff and specific humidity; none exactly for the other units |
| EcmwfProperties.ConversionsInvertible | Sources/App/Ecmwf/EcmwfVariable.swift:563-599 | every declared conversion can be undone: inverting a converted value gives the native value back |
| EcmwfProperties.CelsiusFieldsFromKelvin | Sources/App/Ecmwf/EcmwfVariable.swift:565-577 | every Celsius field is converted from Kelvin: x K is stored as x - 273.15 degrees Celsius |
| EcmwfProperties.ElevationCorrectableAreSurfaceTemperatures | Sources/App/Ecmwf/EcmwfVariable.swift:164-166 | the elevation-correctable variables are exactly the single-level Celsius fields, and all of them are converted from Kelvin |
| EcmwfProperties.DownloadOnlyVariables | Sources/App/Ecmwf/EcmwfVariable.swift:144-159 | download-only is returned exactly for relative humidity at the eight levels above 1000 hPa |
| EcmwfProperties.EnsembleClasses | Sources/App/Ecmwf/EcmwfVariable.swift:116-162 | the download-only and download-and-process classes are disjoint, and every other variable is left out of the ensemble |
| EcmwfProperties.PreviousForecastIsProcessed | Sources/App/Ecmwf/EcmwfVariable.swift:102-162 | every variable whose previous forecast is kept is downloaded and processed for the ensemble |
| EcmwfDerived.RequiresOffsetCorrectionForMixing | Sources/App/Ecmwf/EcmwfVariable.swift:734-736 | no derived variable needs an offset correction when mixed |
| EcmwfTypes.InvertApply | Sources/App/Ecmwf/EcmwfVariable.swift:563-599 | an affine conversion with a non-zero factor is undone by its inverse |

The tables `Unit`, `Level` and `NameInFiles` carry no contract of their own.
Their content is stated by the lemmas above:

- `Unit`: one `…Fields` lemma per unit, each naming exactly the variables stored in it, and the `Family…` lemmas;
- `Level`: the coverage lemmas, `SingleLevelHeights` and `LevelsAreStandard`;
- `NameInFiles`: `NameRoundTrip` and `OmFileNamesDistinct`.

`OmFileName` has a contract, but it only restates how the pair is built: the
raw name, at level 0.

## Left out

- Quantisation with the scale factors and `Float` rounding: the encoder that applies them is not part of this model. Coefficients are exact reals, so `1/100` is exactly `0.01`.
- The Hermite and backwards-sum interpolation algorithms: `ReaderInterpolation` is defined elsewhere. Only the policy tag and its bounds are modelled.
- The `GenericVariable`/`GenericVariableMixable` protocols, the application-wide `SiUnit` enumeration and the `CaseIterable`/`Hashable` conformances: these are replaced by local datatypes. `SiUnit` holds only the units this file uses.
- EcmwfNames.FromName: it is proved to invert `NameInFiles` on every variable, which gives distinct names. The converse is not proved: that a string it decodes is that variable's raw name. That would need the two 86-entry string tables compared entry by entry.
- EcmwfVariables.Level: returns `NoLevel`/`At(n)` in place of Swift's `Int?`. The content of the table is stated by lemmas, not by a contract.
- Alias canonicalisation of the derived variables, such as `windspeed_10m` versus `wind_speed_10m`: the enumeration declares no grouping or dispatch, so none is modelled.
- GRIB decoding, downloading, file storage and concurrency: none of these is in this file.

=== FILE: ecmwf_names.dfy ===
/** The raw names of the ECMWF variables, which are also the names of
    their time-series files: decoding a name gives the variable back, so no
    two variables share a file. */
module EcmwfNames {
  import opened Optional
  import opened EcmwfVariables

  /** The variable whose raw name is `s`, if any. The name is located by its
      length and then by the few characters that tell names of that length
      apart; the candidate is accepted only if it matches `s` in full. */
  function FromName(s: string): Option<EcmwfVariable> {
    if |s| == 6 then
      if s == "runoff" then Some(runoff) else None
    else if |s| == 11 then
      if s == "cloud_cover" then Some(cloud_cover) else None
    else if |s| == 12 then
      if s == "pressure_msl" then Some(pressure_msl) else None
    else if |s| == 13 then
      if s == "precipitation" then Some(precipitation) else None
    else if |s| == 14 then
      if s == "temperature_2m" then Some(temperature_2m) else None
    else if |s| == 15 then
      if s[12] == 'l' then
        if s == "cloud_cover_low" then Some(cloud_cover_low) else None
      else if s[12] == 'm' then
        if s == "cloud_cover_mid" then Some(cloud_cover_mid) else None
      else None
    else if |s| == 16 then
      if s[0] == 'c' then
        if s == "cloud_cover_high" then Some(cloud_cover_high) else None
      else if s[0] == 's' then
        if s == "surface_pressure" then Some(surface_pressure) else None
      else None
    else if |s| == 17 then
      if s == "temperature_50hPa" then Some(temperature_50hPa) else None
    else if |s| == 18 then
      if s[12] == '2' then
        if s[13] == '0' then
          if s == "temperature_200hPa" then Some(temperature_200hPa) else None
        else if s[13] == '5' then
          if s == "temperature_250hPa" then Some(temperature_250hPa) else None
        else None
      else if s[12] == '3' then
        if s == "temperature_300hPa" then Some(temperature_300hPa) else None
      else if s[12] == '5' then
        if s == "temperature_500hPa" then Some(temperature_500hPa) else None
      else if s[12] == '7' then
        if s == "temperature_700hPa" then Some(temperature_700hPa) else None
      else if s[12] == '8' then
        if s == "temperature_850hPa" then Some(temperature_850hPa) else None
      else if s[12] == '9' then
        if s == "temperature_925hPa" then Some(temperature_925hPa) else None
      else None
    else if |s| == 19 then
      if s[0] == 's' then
        if s == "surface_temperature" then Some(surface_temperature) else None
      else if s[0] == 't' then
        if s == "temperature_1000hPa" then Some(temperature_1000hPa) else None
      else None
    else if |s| == 20 then
      if s[5] == 'u' then
        if s == "wind_u_component_10m" then Some(wind_u_component_10m) else None
      else if s[5] == 'v' then
        if s == "wind_v_component_10m" then Some(wind_v_component_10m) else None
      else None
    else if |s| == 22 then
      if s[5] == 'u' then
        if s == "wind_u_component_50hPa" then Some(wind_u_component_50hPa) else None
      else if s[5] == 'v' then
        if s == "wind_v_component_50hPa" then Some(wind_v_component_50hPa) else None
      else None
    else if |s| == 23 then
      if s[17] == '2' then
        if s[5] == 'u' then
          if s[18] == '0' then
            if s == "wind_u_component_200hPa" then Some(wind_u_component_200hPa) else None
          else if s[18] == '5' then
            if s == "wind_u_component_250hPa" then Some(wind_u_component_250hPa) else None
          else None
        else if s[5] == 'v' then
          if s[18] == '0' then
            if s == "wind_v_component_200hPa" then Some(wind_v_component_200hPa) else None
          else if s[18] == '5' then
            if s == "wind_v_component_250hPa" then Some(wind_v_component_250hPa) else None
          else None
        else None
      else if s[17] == '3' then
        if s[5] == 'u' then
          if s == "wind_u_component_300hPa" then Some(wind_u_component_300hPa) else None
        else if s[5] == 'v' then
          if s == "wind_v_component_300hPa" then Some(wind_v_component_300hPa) else None
        else None
      else if s[17] == '5' then
        if s[5] == 'u' then
          if s == "wind_u_component_500hPa" then Some(wind_u_component_500hPa) else None
        else if s[5] == 'v' then
          if s == "wind_v_component_500hPa" then Some(wind_v_component_500hPa) else None
        else None
      else if s[17] == '7' then
        if s[5] == 'u' then
          if s == "wind_u_component_700hPa" then Some(wind_u_component_700hPa) else None
        else if s[5] == 'v' then
          if s == "wind_v_component_700hPa" then Some(wind_v_component_700hPa) else None
        else None
      else if s[17] == '8' then
        if s[5] == 'u' then
          if s == "wind_u_component_850hPa" then Some(wind_u_component_850hPa) else None
        else if s[5] == 'v' then
          if s == "wind_v_component_850hPa" then Some(wind_v_component_850hPa) else None
        else None
      else if s[17] == '9' then
        if s[5] == 'u' then
          if s == "wind_u_component_925hPa" then Some(wind_u_component_925hPa) else None
        else if s[5] == 'v' then
          if s == "wind_v_component_925hPa" then Some(wind_v_component_925hPa) else None
        else None
      else if s[17] == '_' then
        if s[0] == 'r' then
          if s == "relative_humidity_50hPa" then Some(relative_humidity_50hPa) else None
        else if s[0] == 's' then
          if s == "specific_humidity_50hPa" then Some(specific_humidity_50hPa) else None
        else None
      else None
    else if |s| == 24 then
      if s[18] == '0' then
        if s[5] == 'u' then
          if s == "wind_u_component_1000hPa" then Some(wind_u_component_1000hPa) else None
        else if s[5] == 'v' then
          if s == "wind_v_component_1000hPa" then Some(wind_v_component_1000hPa) else None
        else None
      else if s[18] == '2' then
        if s[0] == 'r' then
          if s[19] == '0' then
            if s == "relative_humidity_200hPa" then Some(relative_humidity_200hPa) else None
          else if s[19] == '5' then
            if s == "relative_humidity_250hPa" then Some(relative_humidity_250hPa) else None
          else None
        else if s[0] == 's' then
          if s[19] == '0' then
            if s == "specific_humidity_200hPa" then Some(specific_humidity_200hPa) else None
          else if s[19] == '5' then
            if s == "specific_humidity_250hPa" then Some(specific_humidity_250hPa) else None
          else None
        else None
      else if s[18] == '3' then
        if s[0] == 'r' then
          if s == "relative_humidity_300hPa" then Some(relative_humidity_300hPa) else None
        else if s[0] == 's' then
          if s == "specific_humidity_300hPa" then Some(specific_humidity_300hPa) else None
        else None
      else if s[18] == '5' then
        if s[0] == 'r' then
          if s == "relative_humidity_500hPa" then Some(relative_humidity_500hPa) else None
        else if s[0] == 's' then
          if s == "specific_humidity_500hPa" then Some(specific_humidity_500hPa) else None
        else None
      else if s[18] == '7' then
        if s[0] == 'r' then
          if s == "relative_humidity_700hPa" then Some(relative_humidity_700hPa) else None
        else if s[0] == 's' then
          if s == "specific_humidity_700hPa" then Some(specific_humidity_700hPa) else None
        else None
      else if s[18] == '8' then
        if s[0] == 'r' then
          if s == "relative_humidity_850hPa" then Some(relative_humidity_850hPa) else None
        else if s[0] == 's' then
          if s == "specific_humidity_850hPa" then Some(specific_humidity_850hPa) else None
        else None
      else if s[18] == '9' then
        if s[0] == 'r' then
          if s == "relative_humidity_925hPa" then Some(relative_humidity_925hPa) else None
        else if s[0] == 's' then
          if s == "specific_humidity_925hPa" then Some(specific_humidity_925hPa) else None
        else None
      else if s[18] == '_' then
        if s[0] == 'd' then
          if s == "divergence_of_wind_50hPa" then Some(divergence_of_wind_50hPa) else None
        else if s[0] == 'r' then
          if s == "relative_vorticity_50hPa" then Some(relative_vorticity_50hPa) else None
        else None
      else None
    else if |s| == 25 then
      if s[19] == '0' then
        if s[0] == 'r' then
          if s == "relative_humidity_1000hPa" then Some(relative_humidity_1000hPa) else None
        else if s[0] == 's' then
          if s == "specific_humidity_1000hPa" then Some(specific_humidity_1000hPa) else None
        else None
      else if s[19] == '2' then
        if s[0] == 'd' then
          if s[20] == '0' then
            if s == "divergence_of_wind_200hPa" then Some(divergence_of_wind_200hPa) else None
          else if s[20] == '5' then
            if s == "divergence_of_wind_250hPa" then Some(divergence_of_wind_250hPa) else None
          else None
        else if s[0] == 'r' then
          if s[20] == '0' then
            if s == "relative_vorticity_200hPa" then Some(relative_vorticity_200hPa) else None
          else if s[20] == '5' then
            if s == "relative_vorticity_250hPa" then Some(relative_vorticity_250hPa) else None
          else None
        else None
      else if s[19] == '3' then
        if s[0] == 'd' then
          if s == "divergence_of_wind_300hPa" then Some(divergence_of_wind_300hPa) else None
        else if s[0] == 'r' then
          if s == "relative_vorticity_300hPa" then Some(relative_vorticity_300hPa) else None
        else None
      else if s[19] == '5' then
        if s[0] == 'd' then
          if s == "divergence_of_wind_500hPa" then Some(divergence_of_wind_500hPa) else None
        else if s[0] == 'r' then
          if s == "relative_vorticity_500hPa" then Some(relative_vorticity_500hPa) else None
        else None
      else if s[19] == '7' then
        if s[0] == 'd' then
          if s == "divergence_of_wind_700hPa" then Some(divergence_of_wind_700hPa) else None
        else if s[0] == 'r' then
          if s == "relative_vorticity_700hPa" then Some(relative_vorticity_700hPa) else None
        else None
      else if s[19] == '8' then
        if s[0] == 'd' then
          if s == "divergence_of_wind_850hPa" then Some(divergence_of_wind_850hPa) else None
        else if s[0] == 'r' then
          if s == "relative_vorticity_850hPa" then Some(relative_vorticity_850hPa) else None
        else None
      else if s[19] == '9' then
        if s[0] == 'd' then
          if s == "divergence_of_wind_925hPa" then Some(divergence_of_wind_925hPa) else None
        else if s[0] == 'r' then
          if s == "relative_vorticity_925hPa" then Some(relative_vorticity_925hPa) else None
        else None
      else if s[19] == '_' then
        if s == "geopotential_height_50hPa" then Some(geopotential_height_50hPa) else None
      else if s[19] == 't' then
        if s == "soil_temperature_0_to_7cm" then Some(soil_temperature_0_to_7cm) else None
      else None
    else if |s| == 26 then
      if s[20] == '0' then
        if s[0] == 'd' then
          if s == "divergence_of_wind_1000hPa" then Some(divergence_of_wind_1000hPa) else None
        else if s[0] == 'r' then
          if s == "relative_vorticity_1000hPa" then Some(relative_vorticity_1000hPa) else None
        else None
      else if s[20] == '2' then
        if s[21] == '0' then
          if s == "geopotential_height_200hPa" then Some(geopotential_height_200hPa) else None
        else if s[21] == '5' then
          if s == "geopotential_height_250hPa" then Some(geopotential_height_250hPa) else None
        else None
      else if s[20] == '3' then
        if s == "geopotential_height_300hPa" then Some(geopotential_height_300hPa) else None
      else if s[20] == '5' then
        if s == "geopotential_height_500hPa" then Some(geopotential_height_500hPa) else None
      else if s[20] == '7' then
        if s == "geopotential_height_700hPa" then Some(geopotential_height_700hPa) else None
      else if s[20] == '8' then
        if s == "geopotential_height_850hPa" then Some(geopotential_height_850hPa) else None
      else if s[20] == '9' then
        if s == "geopotential_height_925hPa" then Some(geopotential_height_925hPa) else None
      else None
    else if |s| == 27 then
      if s == "geopotential_height_1000hPa" then Some(geopotential_height_1000hPa) else None
    else if |s| == 36 then
      if s == "total_column_integrated_water_vapour" then Some(total_column_integrated_water_vapour) else None
    else None
  }

  /** `FromName` decodes the name of every cloud-cover variable. */
  lemma CloudCoverNamesDecode()
    ensures FromName("cloud_cover") == Some(cloud_cover)
    ensures FromName("cloud_cover_low") == Some(cloud_cover_low)
    ensures FromName("cloud_cover_mid") == Some(cloud_cover_mid)
    ensures FromName("cloud_cover_high") == Some(cloud_cover_high)
  {
  }

  /** `FromName` decodes the name of every geopotential-height variable. */
  lemma GeopotentialHeightNamesDecode()
    ensures FromName("geopotential_height_1000hPa") == Some(geopotential_height_1000hPa)
    ensures FromName("geopotential_height_925hPa") == Some(geopotential_height_925hPa)
    ensures FromName("geopotential_height_850hPa") == Some(geopotential_height_850hPa)
    ensures FromName("geopotential_height_700hPa") == Some(geopotential_height_700hPa)
    ensures FromName("geopotential_height_500hPa") == Some(geopotential_height_500hPa)
    ensures FromName("geopotential_height_300hPa") == Some(geopotential_height_300hPa)
    ensures FromName("geopotential_height_250hPa") == Some(geopotential_height_250hPa)
    ensures FromName("geopotential_height_200hPa") == Some(geopotential_height_200hPa)
    ensures FromName("geopotential_height_50hPa") == Some(geopotential_height_50hPa)
  {
  }

  /** Decoding the raw name of a geopotential-height variable gives the
      variable back. */
  lemma GeopotentialHeightNameRoundTrip(v: EcmwfVariable)
    requires FamilyOf(v) == PressureLevel(GeopotentialHeight)
    ensures FromName(NameInFiles(v)) == Some(v)
  {
    GeopotentialHeightNamesDecode();
  }

  /** `FromName` decodes the name of every V-wind variable. */
  lemma WindVNamesDecode()
    ensures FromName("wind_v_component_1000hPa") == Some(wind_v_component_1000hPa)
    ensures FromName("wind_v_component_925hPa") == Some(wind_v_component_925hPa)
    ensures FromName("wind_v_component_850hPa") == Some(wind_v_component_850hPa)
    ensures FromName("wind_v_component_700hPa") == Some(wind_v_component_700hPa)
    ensures FromName("wind_v_component_500hPa") == Some(wind_v_component_500hPa)
    ensures FromName("wind_v_component_300hPa") == Some(wind_v_component_300hPa)
    ensures FromName("wind_v_component_250hPa") == Some(wind_v_component_250hPa)
    ensures FromName("wind_v_component_200hPa") == Some(wind_v_component_200hPa)
    ensures FromName("wind_v_component_50hPa") == Some(wind_v_component_50hPa)
  {
  }

  /** Decoding the raw name of a V-wind variable gives the variable back. */
  lemma WindVNameRoundTrip(v: EcmwfVariable)
    requires FamilyOf(v) == PressureLevel(WindV)
    ensures FromName(NameInFiles(v)) == Some(v)
  {
    WindVNamesDecode();
  }

  /** `FromName` decodes the name of every U-wind variable. */
  lemma WindUNamesDecode()
    ensures FromName("wind_u_component_1000hPa") == Some(wind_u_component_1000hPa)
    ensures FromName("wind_u_component_925hPa") == Some(wind_u_component_925hPa)
    ensures FromName("wind_u_component_850hPa") == Some(wind_u_component_850hPa)
    ensures FromName("wind_u_component_700hPa") == Some(wind_u_component_700hPa)
    ensures FromName("wind_u_component_500hPa") == Some(wind_u_component_500hPa)
    ensures FromName("wind_u_component_300hPa") == Some(wind_u_component_300hPa)
    ensures FromName("wind_u_component_250hPa") == Some(wind_u_component_250hPa)
    ensures FromName("wind_u_component_200hPa") == Some(wind_u_component_200hPa)
    ensures FromName("wind_u_component_50hPa") == Some(wind_u_component_50hPa)
  {
  }

  /** Decoding the raw name of a U-wind variable gives the variable back. */
  lemma WindUNameRoundTrip(v: EcmwfVariable)
    requires FamilyOf(v) == PressureLevel(WindU)
    ensures FromName(NameInFiles(v)) == Some(v)
  {
    WindUNamesDecode();
  }

  /** `FromName` decodes the name of every temperature variable. */
  lemma TemperatureNamesDecode()
    ensures FromName("temperature_1000hPa") == Some(temperature_1000hPa)
    ensures FromName("temperature_925hPa") == Some(temperature_925hPa)
    ensures FromName("temperature_850hPa") == Some(temperature_850hPa)
    ensures FromName("temperature_700hPa") == Some(temperature_700hPa)
    ensures FromName("temperature_500hPa") == Some(temperature_500hPa)
    ensures FromName("temperature_300hPa") == Some(temperature_300hPa)
    ensures FromName("temperature_250hPa") == Some(temperature_250hPa)
    ensures FromName("temperature_200hPa") == Some(temperature_200hPa)
    ensures FromName("temperature_50hPa") == Some(temperature_50hPa)
  {
  }

  /** Decoding the raw name of a temperature variable gives the variable back.
      */
  lemma TemperatureNameRoundTrip(v: EcmwfVariable)
    requires FamilyOf(v) == PressureLevel(Temperature)
    ensures FromName(NameInFiles(v)) == Some(v)
  {
    TemperatureNamesDecode();
  }

  /** `FromName` decodes the name of every relative-humidity variable. */
  lemma RelativeHumidityNamesDecode()
    ensures FromName("relative_humidity_1000hPa") == Some(relative_humidity_1000hPa)
    ensures FromName("relative_humidity_925hPa") == Some(relative_humidity_925hPa)
    ensures FromName("relative_humidity_850hPa") == Some(relative_humidity_850hPa)
    ensures FromName("relative_humidity_700hPa") == Some(relative_humidity_700hPa)
    ensures FromName("relative_humidity_500hPa") == Some(relative_humidity_500hPa)
    ensures FromName("relative_humidity_300hPa") == Some(relative_humidity_300hPa)
    ensures FromName("relative_humidity_250hPa") == Some(relative_humidity_250hPa)
    ensures FromName("relative_humidity_200hPa") == Some(relative_humidity_200hPa)
    ensures FromName("relative_humidity_50hPa") == Some(relative_humidity_50hPa)
  {
  }

  /** Decoding the raw name of a relative-humidity variable gives the variable
      back. */
  lemma RelativeHumidityNameRoundTrip(v: EcmwfVariable)
    requires FamilyOf(v) == PressureLevel(RelativeHumidity)
    ensures FromName(NameInFiles(v)) == Some(v)
  {
    RelativeHumidityNamesDecode();
  }

  /** `FromName` decodes the name of every specific-humidity variable. */
  lemma SpecificHumidityNamesDecode()
    ensures FromName("specific_humidity_1000hPa") == Some(specific_humidity_1000hPa)
    ensures FromName("specific_humidity_925hPa") == Some(specific_humidity_925hPa)
    ensures FromName("specific_humidity_850hPa") == Some(specific_humidity_850hPa)
    ensures FromName("specific_humidity_700hPa") == Some(specific_humidity_700hPa)
    ensures FromName("specific_humidity_500hPa") == Some(specific_humidity_500hPa)
    ensures FromName("specific_humidity_300hPa") == Some(specific_humidity_300hPa)
    ensures FromName("specific_humidity_250hPa") == Some(specific_humidity_250hPa)
    ensures FromName("specific_humidity_200hPa") == Some(specific_humidity_200hPa)
    ensures FromName("specific_humidity_50hPa") == Some(specific_humidity_50hPa)
  {
  }

  /** Decoding the raw name of a specific-humidity variable gives the variable
      back. */
  lemma SpecificHumidityNameRoundTrip(v: EcmwfVariable)
    requires FamilyOf(v) == PressureLevel(SpecificHumidity)
    ensures FromName(NameInFiles(v)) == Some(v)
  {
    SpecificHumidityNamesDecode();
  }

  /** `FromName` decodes the name of every relative-vorticity variable. */
  lemma RelativeVorticityNamesDecode()
    ensures FromName("relative_vorticity_1000hPa") == Some(relative_vorticity_1000hPa)
    ensures FromName("relative_vorticity_925hPa") == Some(relative_vorticity_925hPa)
    ensures FromName("relative_vorticity_850hPa") == Some(relative_vorticity_850hPa)
    ensures FromName("relative_vorticity_700hPa") == Some(relative_vorticity_700hPa)
    ensures FromName("relative_vorticity_500hPa") == Some(relative_vorticity_500hPa)
    ensures FromName("relative_vorticity_300hPa") == Some(relative_vorticity_300hPa)
    ensures FromName("relative_vorticity_250hPa") == Some(relative_vorticity_250hPa)
    ensures FromName("relative_vorticity_200hPa") == Some(relative_vorticity_200hPa)
    ensures FromName("relative_vorticity_50hPa") == Some(relative_vorticity_50hPa)
  {
  }

  /** Decoding the raw name of a relative-vorticity variable gives the
      variable back. */
  lemma RelativeVorticityNameRoundTrip(v: EcmwfVariable)
    requires FamilyOf(v) == PressureLevel(RelativeVorticity)
    ensures FromName(NameInFiles(v)) == Some(v)
  {
    RelativeVorticityNamesDecode();
  }

  /** `FromName` decodes the name of every divergence variable. */
  lemma DivergenceOfWindNamesDecode()
    ensures FromName("divergence_of_wind_1000hPa") == Some(divergence_of_wind_1000hPa)
    ensures FromName("divergence_of_wind_925hPa") == Some(divergence_of_wind_925hPa)
    ensures FromName("divergence_of_wind_850hPa") == Some(divergence_of_wind_850hPa)
    ensures FromName("divergence_of_wind_700hPa") == Some(divergence_of_wind_700hPa)
    ensures FromName("divergence_of_wind_500hPa") == Some(divergence_of_wind_500hPa)
    ensures FromName("divergence_of_wind_300hPa") == Some(divergence_of_wind_300hPa)
    ensures FromName("divergence_of_wind_250hPa") == Some(divergence_of_wind_250hPa)
    ensures FromName("divergence_of_wind_200hPa") == Some(divergence_of_wind_200hPa)
    ensures FromName("divergence_of_wind_50hPa") == Some(divergence_of_wind_50hPa)
  {
  }

  /** Decoding the raw name of a divergence variable gives the variable back.
      */
  lemma DivergenceOfWindNameRoundTrip(v: EcmwfVariable)
    requires FamilyOf(v) == PressureLevel(DivergenceOfWind)
    ensures FromName(NameInFiles(v)) == Some(v)
  {
    DivergenceOfWindNamesDecode();
  }

  /** `FromName` decodes the name of every single-level variable other than
      cloud cover. */
  lemma SingleLevelNamesDecode()
    ensures FromName("precipitation") == Some(precipitation)
    ensures FromName("runoff") == Some(runoff)
    ensures FromName("soil_temperature_0_to_7cm") == Some(soil_temperature_0_to_7cm)
    ensures FromName("surface_temperature") == Some(surface_temperature)
    ensures FromName("surface_pressure") == Some(surface_pressure)
    ensures FromName("pressure_msl") == Some(pressure_msl)
    ensures FromName("total_column_integrated_water_vapour") == Some(total_column_integrated_water_vapour)
    ensures FromName("wind_v_component_10m") == Some(wind_v_component_10m)
    ensures FromName("wind_u_component_10m") == Some(wind_u_component_10m)
    ensures FromName("temperature_2m") == Some(temperature_2m)
  {
  }

  /** Decoding the raw name of a single-level variable gives the variable
      back. */
  lemma SingleLevelNameRoundTrip(v: EcmwfVariable)
    requires FamilyOf(v) == SingleLevel
    ensures FromName(NameInFiles(v)) == Some(v)
  {
    SingleLevelNamesDecode();
    CloudCoverNamesDecode();
  }

  /** Decoding the raw name of any variable gives the variable back. */
  lemma NameRoundTrip(v: EcmwfVariable)
    ensures FromName(NameInFiles(v)) == Some(v)
  {
    match FamilyOf(v)
    case SingleLevel => SingleLevelNameRoundTrip(v);
    case PressureLevel(q) =>
      match q
      case GeopotentialHeight => GeopotentialHeightNameRoundTrip(v);
      case WindV => WindVNameRoundTrip(v);
      case WindU => WindUNameRoundTrip(v);
      case Temperature => TemperatureNameRoundTrip(v);
      case RelativeHumidity => RelativeHumidityNameRoundTrip(v);
      case SpecificHumidity => SpecificHumidityNameRoundTrip(v);
      case RelativeVorticity => RelativeVorticityNameRoundTrip(v);
      case DivergenceOfWind => DivergenceOfWindNameRoundTrip(v);
  }

  /** Every variable is stored in a file of its own: equal file names mean
      equal variables. */
  lemma OmFileNamesDistinct(v: EcmwfVariable, w: EcmwfVariable)
    requires OmFileName(v).0 == OmFileName(w).0
    ensures v == w
  {
    NameRoundTrip(v);
    NameRoundTrip(w);
  }
}

=== FILE: ecmwf_pressure_levels.dfy ===
/** Pressure-level coverage: each of the eight quantity families has exactly
    one member at each of the nine standard pressure levels, and `Level` maps
    the family one-to-one onto those levels.

    The facts are proved one quantity at a time (each per-quantity lemma is a
    case analysis over the whole variable enumeration) and then combined by a
    case split on the quantity. */
module EcmwfPressureLevels {
  import opened EcmwfVariables

  /** Every geopotential-height variable sits at a standard level and is the
      geopotential-height member of that level. */
  lemma GeopotentialHeightMembersIdentified(v: EcmwfVariable)
    requires FamilyOf(v) == PressureLevel(GeopotentialHeight)
    ensures Level(v).At? && Level(v).value in PressureLevels
    ensures PressureMember(GeopotentialHeight, Level(v).value) == v
  {
  }

  /** Every standard level has a geopotential-height member, at that level. */
  lemma GeopotentialHeightLevelsCovered(hPa: int)
    requires hPa in PressureLevels
    ensures FamilyOf(PressureMember(GeopotentialHeight, hPa)) == PressureLevel(GeopotentialHeight)
    ensures Level(PressureMember(GeopotentialHeight, hPa)) == At(hPa)
  {
  }

  /** Every V-wind variable sits at a standard level and is the V-wind member
      of that level. */
  lemma WindVMembersIdentified(v: EcmwfVariable)
    requires FamilyOf(v) == PressureLevel(WindV)
    ensures Level(v).At? && Level(v).value in PressureLevels
    ensures PressureMember(WindV, Level(v).value) == v
  {
  }

  /** Every standard level has a V-wind member, at that level. */
  lemma WindVLevelsCovered(hPa: int)
    requires hPa in PressureLevels
    ensures FamilyOf(PressureMember(WindV, hPa)) == PressureLevel(WindV)
    ensures Level(PressureMember(WindV, hPa)) == At(hPa)
  {
  }

  /** Every U-wind variable sits at a standard level and is the U-wind member
      of that level. */
  lemma WindUMembersIdentified(v: EcmwfVariable)
    requires FamilyOf(v) == PressureLevel(WindU)
    ensures Level(v).At? && Level(v).value in PressureLevels
    ensures PressureMember(WindU, Level(v).value) == v
  {
  }

  /** Every standard level has a U-wind member, at that level. */
  lemma WindULevelsCovered(hPa: int)
    requires hPa in PressureLevels
    ensures FamilyOf(PressureMember(WindU, hPa)) == PressureLevel(WindU)
    ensures Level(PressureMember(WindU, hPa)) == At(hPa)
  {
  }

  /** Every temperature variable sits at a standard level and is the
      temperature member of that level. */
  lemma TemperatureMembersIdentified(v: EcmwfVariable)
    requires FamilyOf(v) == PressureLevel(Temperature)
    ensures Level(v).At? && Level(v).value in PressureLevels
    ensures PressureMember(Temperature, Level(v).value) == v
  {
  }

  /** Every standard level has a temperature member, at that level. */
  lemma TemperatureLevelsCovered(hPa: int)
    requires hPa in PressureLevels
    ensures FamilyOf(PressureMember(Temperature, hPa)) == PressureLevel(Temperature)
    ensures Level(PressureMember(Temperature, hPa)) == At(hPa)
  {
  }

  /** Every relative-humidity variable sits at a standard level and is the
      relative-humidity member of that level. */
  lemma RelativeHumidityMembersIdentified(v: EcmwfVariable)
    requires FamilyOf(v) == PressureLevel(RelativeHumidity)
    ensures Level(v).At? && Level(v).value in PressureLevels
    ensures PressureMember(RelativeHumidity, Level(v).value) == v
  {
  }

  /** Every standard level has a relative-humidity member, at that level. */
  lemma RelativeHumidityLevelsCovered(hPa: int)
    requires hPa in PressureLevels
    ensures FamilyOf(PressureMember(RelativeHumidity, hPa)) == PressureLevel(RelativeHumidity)
    ensures Level(PressureMember(RelativeHumidity, hPa)) == At(hPa)
  {
  }

  /** Every specific-humidity variable sits at a standard level and is the
      specific-humidity member of that level. */
  lemma SpecificHumidityMembersIdentified(v: EcmwfVariable)
    requires FamilyOf(v) == PressureLevel(SpecificHumidity)
    ensures Level(v).At? && Level(v).value in PressureLevels
    ensures PressureMember(SpecificHumidity, Level(v).value) == v
  {
  }

  /** Every standard level has a specific-humidity member, at that level. */
  lemma SpecificHumidityLevelsCovered(hPa: int)
    requires hPa in PressureLevels
    ensures FamilyOf(PressureMember(SpecificHumidity, hPa)) == PressureLevel(SpecificHumidity)
    ensures Level(PressureMember(SpecificHumidity, hPa)) == At(hPa)
  {
  }

  /** Every relative-vorticity variable sits at a standard level and is the
      relative-vorticity member of that level. */
  lemma RelativeVorticityMembersIdentified(v: EcmwfVariable)
    requires FamilyOf(v) == PressureLevel(RelativeVorticity)
    ensures Level(v).At? && Level(v).value in PressureLevels
    ensures PressureMember(RelativeVorticity, Level(v).value) == v
  {
  }

  /** Every standard level has a relative-vorticity member, at that level. */
  lemma RelativeVorticityLevelsCovered(hPa: int)
    requires hPa in PressureLevels
    ensures FamilyOf(PressureMember(RelativeVorticity, hPa)) == PressureLevel(RelativeVorticity)
    ensures Level(PressureMember(RelativeVorticity, hPa)) == At(hPa)
  {
  }

  /** Every divergence variable sits at a standard level and is the divergence
      member of that level. */
  lemma DivergenceOfWindMembersIdentified(v: EcmwfVariable)
    requires FamilyOf(v) == PressureLevel(DivergenceOfWind)
    ensures Level(v).At? && Level(v).value in PressureLevels
    ensures PressureMember(DivergenceOfWind, Level(v).value) == v
  {
  }

  /** Every standard level has a divergence member, at that level. */
  lemma DivergenceOfWindLevelsCovered(hPa: int)
    requires hPa in PressureLevels
    ensures FamilyOf(PressureMember(DivergenceOfWind, hPa)) == PressureLevel(DivergenceOfWind)
    ensures Level(PressureMember(DivergenceOfWind, hPa)) == At(hPa)
  {
  }

  /** From variable to level and back: a member of a quantity family sits at a
      standard level, and looking that level up in the family gives the member
      again. */
  lemma LevelIdentifiesMember(v: EcmwfVariable)
    requires FamilyOf(v).PressureLevel?
    ensures Level(v).At? && Level(v).value in PressureLevels
    ensures PressureMember(FamilyOf(v).quantity, Level(v).value) == v
  {
    match FamilyOf(v).quantity
    case GeopotentialHeight => GeopotentialHeightMembersIdentified(v);
    case WindV => WindVMembersIdentified(v);
    case WindU => WindUMembersIdentified(v);
    case Temperature => TemperatureMembersIdentified(v);
    case RelativeHumidity => RelativeHumidityMembersIdentified(v);
    case SpecificHumidity => SpecificHumidityMembersIdentified(v);
    case RelativeVorticity => RelativeVorticityMembersIdentified(v);
    case DivergenceOfWind => DivergenceOfWindMembersIdentified(v);
  }

  /** From level to variable and back: every standard level of every quantity
      has a member, of that quantity and at that level. */
  lemma MemberAtEveryLevel(q: Quantity, hPa: int)
    requires hPa in PressureLevels
    ensures FamilyOf(PressureMember(q, hPa)) == PressureLevel(q)
    ensures Level(PressureMember(q, hPa)) == At(hPa)
  {
    match q
    case GeopotentialHeight => GeopotentialHeightLevelsCovered(hPa);
    case WindV => WindVLevelsCovered(hPa);
    case WindU => WindULevelsCovered(hPa);
    case Temperature => TemperatureLevelsCovered(hPa);
    case RelativeHumidity => RelativeHumidityLevelsCovered(hPa);
    case SpecificHumidity => SpecificHumidityLevelsCovered(hPa);
    case RelativeVorticity => RelativeVorticityLevelsCovered(hPa);
    case DivergenceOfWind => DivergenceOfWindLevelsCovered(hPa);
  }

  /** Two members of one quantity family at the same level are the same
      variable. */
  lemma LevelInjectiveInFamily(v: EcmwfVariable, w: EcmwfVariable)
    requires FamilyOf(v).PressureLevel? && FamilyOf(v) == FamilyOf(w)
    requires Level(v) == Level(w)
    ensures v == w
  {
    LevelIdentifiesMember(v);
    LevelIdentifiesMember(w);
  }

  /** The pressure-level variables of a quantity are exactly its members at the
      nine standard levels. */
  lemma FamilyIsMembersAtLevels(q: Quantity, v: EcmwfVariable)
    ensures FamilyOf(v) == PressureLevel(q)
      <==> exists hPa :: hPa in PressureLevels && v == PressureMember(q, hPa)
  {
    if FamilyOf(v) == PressureLevel(q) {
      LevelIdentifiesMember(v);
    }
    forall hPa | hPa in PressureLevels && v == PressureMember(q, hPa) {
      MemberAtEveryLevel(q, hPa);
    }
  }
}

=== FILE: ecmwf_properties.dfy ===
/** Consistency of the ECMWF variable tables with one another: the levels
    of a pressure-level quantity agree on unit, GRIB short name and scale
    factor; unit conversion and interpolation follow from the unit; the ensemble, previous-forecast
    and elevation-correction classes are the ones the tables list. */
module EcmwfProperties {
  import opened Optional
  import opened EcmwfTypes
  import opened EcmwfVariables
  import opened EcmwfPressureLevels

  /** The levels of the single-level variables: 10 m for the 10 m winds, 2 m
      for the 2 m temperature, 0 for the top soil layer, none otherwise. */
  lemma SingleLevelHeights(v: EcmwfVariable)
    requires FamilyOf(v) == SingleLevel
    ensures Level(v) ==
      if v == wind_u_component_10m || v == wind_v_component_10m then At(10)
      else if v == temperature_2m then At(2)
      else if v == soil_temperature_0_to_7cm then At(0)
      else NoLevel
  {
  }

  /** Every level in the GRIB files is a standard pressure level, or one of
      the heights 10 m, 2 m and 0 m. */
  lemma LevelsAreStandard(v: EcmwfVariable)
    ensures Level(v).At? ==> Level(v).value in PressureLevels || Level(v).value in {10, 2, 0}
  {
    if FamilyOf(v).PressureLevel? {
      LevelIdentifiesMember(v);
    } else {
      SingleLevelHeights(v);
    }
  }

  /** Every level of a quantity is stored in the quantity's unit. */
  lemma FamilySharesUnit(v: EcmwfVariable)
    requires FamilyOf(v).PressureLevel?
    ensures Unit(v) == QuantityUnit(FamilyOf(v).quantity)
  {
  }

  /** Every level of a quantity carries the quantity's GRIB short name. */
  lemma FamilySharesGribName(v: EcmwfVariable)
    requires FamilyOf(v).PressureLevel?
    ensures GribName(v) == Some(ShortName(FamilyOf(v).quantity))
  {
  }

  /** Every level of a quantity is stored with the quantity's scale factor. */
  lemma FamilySharesScaleFactor(v: EcmwfVariable)
    requires FamilyOf(v).PressureLevel?
    ensures ScaleFactor(v) == QuantityScaleFactor(FamilyOf(v).quantity)
  {
  }

  /** Two levels of the same quantity agree on unit, GRIB short name and
      scale factor. */
  lemma FamilySharesMetadata(v: EcmwfVariable, w: EcmwfVariable)
    requires FamilyOf(v).PressureLevel? && FamilyOf(v) == FamilyOf(w)
    ensures Unit(v) == Unit(w)
    ensures GribName(v) == GribName(w)
    ensures ScaleFactor(v) == ScaleFactor(w)
  {
    FamilySharesUnit(v);
    FamilySharesUnit(w);
    FamilySharesGribName(v);
    FamilySharesGribName(w);
    FamilySharesScaleFactor(v);
    FamilySharesScaleFactor(w);
  }

  /** Distinct quantities have distinct GRIB short names. */
  lemma ShortNamesDistinct(q: Quantity, q': Quantity)
    ensures ShortName(q) == ShortName(q') <==> q == q'
  {
  }

  /** Among pressure-level variables, the GRIB short name identifies the
      quantity: same name exactly when same family. */
  lemma GribNameIdentifiesFamily(v: EcmwfVariable, w: EcmwfVariable)
    requires FamilyOf(v).PressureLevel? && FamilyOf(w).PressureLevel?
    ensures GribName(v) == GribName(w) <==> FamilyOf(v) == FamilyOf(w)
  {
    FamilySharesGribName(v);
    FamilySharesGribName(w);
    ShortNamesDistinct(FamilyOf(v).quantity, FamilyOf(w).quantity);
  }

  /** A single-level variable's GRIB short name belongs to no other variable:
      "2t", "10u", "10v", "st" and the rest never coincide with a
      pressure-level name such as "t", "u" or "v". */
  lemma SingleLevelGribNameIsUnique(v: EcmwfVariable, w: EcmwfVariable)
    requires FamilyOf(v) == SingleLevel && GribName(v).Some? && GribName(v) == GribName(w)
    ensures v == w
  {
  }

  /** The decoder's lookup key: the GRIB short name together with the level
      identifies the variable among all 86. */
  lemma GribNameAndLevelIdentify(v: EcmwfVariable, w: EcmwfVariable)
    requires GribName(v).Some? && GribName(v) == GribName(w) && Level(v) == Level(w)
    ensures v == w
  {
    if FamilyOf(v) == SingleLevel {
      SingleLevelGribNameIsUnique(v, w);
    } else if FamilyOf(w) == SingleLevel {
      SingleLevelGribNameIsUnique(w, v);
    } else {
      GribNameIdentifiesFamily(v, w);
      LevelInjectiveInFamily(v, w);
    }
  }

  /** The accumulated fields stored in millimetres are precipitation and
      runoff. */
  lemma MillimetreFields(v: EcmwfVariable)
    ensures Unit(v) == Millimetre <==> v == precipitation || v == runoff
  {
  }

  /** The percentage fields are the four cloud covers and the relative
      humidity levels. */
  lemma PercentageFields(v: EcmwfVariable)
    ensures Unit(v) == Percentage
      <==> v in CloudCover || FamilyOf(v) == PressureLevel(RelativeHumidity)
  {
  }

  /** The hectopascal fields are the two surface pressures. */
  lemma HectopascalFields(v: EcmwfVariable)
    ensures Unit(v) == Hectopascal <==> v == surface_pressure || v == pressure_msl
  {
  }

  /** The gram-per-kilogram fields are the specific humidity levels. */
  lemma GramPerKilogramFields(v: EcmwfVariable)
    ensures Unit(v) == GramPerKilogram <==> FamilyOf(v) == PressureLevel(SpecificHumidity)
  {
  }

  /** The Celsius fields are the temperature levels and the three surface
      temperatures: 2 m, skin and top soil layer. */
  lemma CelsiusFields(v: EcmwfVariable)
    ensures Unit(v) == Celsius
      <==> FamilyOf(v) == PressureLevel(Temperature)
           || v == temperature_2m || v == surface_temperature || v == soil_temperature_0_to_7cm
  {
  }

  /** The fields in metres are the geopotential height levels. */
  lemma MetreFields(v: EcmwfVariable)
    ensures Unit(v) == Metre <==> FamilyOf(v) == PressureLevel(GeopotentialHeight)
  {
  }

  /** The wind speeds in metres per second are the U and V wind levels and
      the two 10 m wind components. */
  lemma MetrePerSecondFields(v: EcmwfVariable)
    ensures Unit(v) == MetrePerSecond
      <==> FamilyOf(v) == PressureLevel(WindU) || FamilyOf(v) == PressureLevel(WindV)
           || v == wind_u_component_10m || v == wind_v_component_10m
  {
  }

  /** The only field in kilograms per square metre is the total column of
      water vapour. */
  lemma KilogramPerSquareMetreFields(v: EcmwfVariable)
    ensures Unit(v) == KilogramPerSquareMetre <==> v == total_column_integrated_water_vapour
  {
  }

  /** The fields per second are the relative vorticity and divergence levels. */
  lemma PerSecondFields(v: EcmwfVariable)
    ensures Unit(v) == PerSecond
      <==> FamilyOf(v) == PressureLevel(RelativeVorticity)
           || FamilyOf(v) == PressureLevel(DivergenceOfWind)
  {
  }

  /** The interpolation table agrees with the per-unit interpolation policy. */
  lemma InterpolationMatchesUnit(v: EcmwfVariable)
    ensures Interpolation(v) == InterpolationFor(Unit(v))
  {
  }

  /** The conversion table agrees with the per-unit conversion. */
  lemma MultiplyAddMatchesUnit(v: EcmwfVariable)
    ensures MultiplyAdd(v) == ConversionFor(Unit(v))
  {
  }

  /** The interpolation policy is the one the storage unit calls for:
      accumulated millimetres (precipitation and runoff) are summed
      backwards, exactly the percentages (cloud cover and relative humidity)
      are clamped to 0...100, and every other variable is interpolated
      without bounds. The first clause is the contract of `Interpolation`,
      collected here so that the three classes are stated side by side. */
  lemma InterpolationFollowsUnit(v: EcmwfVariable)
    ensures Interpolation(v).BackwardsSum? <==> v == precipitation || v == runoff
    ensures Interpolation(v) == Hermite(Some(PercentBounds))
      <==> v in CloudCover || FamilyOf(v) == PressureLevel(RelativeHumidity)
    ensures Interpolation(v) == Hermite(None)
      <==> !(v == precipitation || v == runoff || v in CloudCover
             || FamilyOf(v) == PressureLevel(RelativeHumidity))
  {
    InterpolationMatchesUnit(v);
    MillimetreFields(v);
    PercentageFields(v);
  }

  /** The affine conversion is the one the storage unit calls for: Kelvin to
      Celsius exactly for the Celsius fields, Pascal to hectopascal for the two
      surface pressures, a factor of 1000 for precipitation, runoff and
      specific humidity, and none for every other variable. */
  lemma MultiplyAddFollowsUnit(v: EcmwfVariable)
    ensures MultiplyAdd(v) == Some(KelvinToCelsius) <==> Unit(v) == Celsius
    ensures MultiplyAdd(v) == Some(PascalToHectopascal)
      <==> v == surface_pressure || v == pressure_msl
    ensures MultiplyAdd(v) == Some(Thousandfold)
      <==> (v == precipitation || v == runoff || FamilyOf(v) == PressureLevel(SpecificHumidity))
    ensures MultiplyAdd(v) == None
      <==> Unit(v) !in {Celsius, Hectopascal, Millimetre, GramPerKilogram}
  {
    MultiplyAddMatchesUnit(v);
    MillimetreFields(v);
    HectopascalFields(v);
    GramPerKilogramFields(v);
  }

  /** Every declared conversion can be undone. */
  lemma ConversionsInvertible(v: EcmwfVariable, x: real)
    requires MultiplyAdd(v).Some?
    ensures Invert(MultiplyAdd(v).value, Apply(MultiplyAdd(v).value, x)) == x
  {
    InvertApply(MultiplyAdd(v).value, x);
  }

  /** Every Celsius field is converted from Kelvin: a value of x K in the
      archive is stored as x - 273.15 degrees Celsius. */
  lemma CelsiusFieldsFromKelvin(v: EcmwfVariable, x: real)
    requires Unit(v) == Celsius
    ensures MultiplyAdd(v).Some?
    ensures Apply(MultiplyAdd(v).value, x) == x - 273.15
  {
    MultiplyAddFollowsUnit(v);
  }

  /** The elevation-correctable variables are exactly the single-level
      Celsius fields, and all of them are converted from Kelvin. */
  lemma ElevationCorrectableAreSurfaceTemperatures(v: EcmwfVariable)
    ensures IsElevationCorrectable(v) <==> Unit(v) == Celsius && FamilyOf(v) == SingleLevel
    ensures IsElevationCorrectable(v) ==> MultiplyAdd(v) == Some(KelvinToCelsius)
  {
  }

  /** The download-only variables are the relative humidity levels above
      1000 hPa. */
  lemma DownloadOnlyVariables(v: EcmwfVariable)
    ensures IncludeInEnsemble(v) == Some(DownloadOnly)
      <==> FamilyOf(v) == PressureLevel(RelativeHumidity) && Level(v) != At(1000)
  {
  }

  /** The ensemble classes: the listed variables are downloaded and stored,
      relative humidity above 1000 hPa is download-only, and every other
      variable is left out of the ensemble. The second clause is the content;
      the first only spells out that the two listed classes do not overlap. */
  lemma EnsembleClasses(v: EcmwfVariable)
    ensures IncludeInEnsemble(v) == Some(DownloadOnly) ==> v !in EnsembleProcessed
    ensures IncludeInEnsemble(v) == None
      <==> v !in EnsembleProcessed
           && !(FamilyOf(v) == PressureLevel(RelativeHumidity) && Level(v) != At(1000))
  {
    DownloadOnlyVariables(v);
  }

  /** Every variable whose previous forecast is kept is also downloaded and
      stored for the ensemble. */
  lemma PreviousForecastIsProcessed(v: EcmwfVariable)
    requires StorePreviousForecast(v)
    ensures IncludeInEnsemble(v) == Some(DownloadAndProcess)
  {
  }
}

=== FILE: ecmwf_types.dfy ===
/** The small value types the ECMWF variable tables are written in: physical
    units, temporal-interpolation policies, the ensemble download policy and
    the affine `(multiply, add)` unit conversion. */
module EcmwfTypes {
  import opened Optional

  /** The physical units the ECMWF tables use (a subset of the application's
      unit enumeration). */
  datatype SiUnit =
    | Millimetre
    | Celsius
    | Metre
    | MetrePerSecond
    | Percentage
    | Hectopascal
    | KilogramPerSquareMetre
    | GramPerKilogram
    | PerSecond

  /** A closed range `lower...upper` of physically admissible values. */
  datatype Bounds = Bounds(lower: real, upper: real)

  /** The bounds of every percentage-valued field: 0...100. */
  const PercentBounds: Bounds := Bounds(0.0, 100.0)

  /** How a reader resamples a variable onto a regular time axis: accumulated
      fields are summed backwards, all others use Hermite interpolation,
      optionally clamped to bounds. */
  datatype ReaderInterpolation =
    | BackwardsSum
    | Hermite(bounds: Option<Bounds>)

  /** Ensemble handling of a variable that is downloaded at all. */
  datatype DownloadOrProcess =
    | DownloadOnly        // fetched as an input, no time-series database is created
    | DownloadAndProcess  // fetched and stored

  /** An affine conversion `x * multiply + add` from the archive's native unit
      to the unit the variable is stored in. */
  datatype Affine = Affine(multiply: real, add: real)

  /** Kelvin to degrees Celsius. */
  const KelvinToCelsius: Affine := Affine(1.0, -273.15)
  /** Pascal to hectopascal. */
  const PascalToHectopascal: Affine := Affine(0.01, 0.0)
  /** Metre to millimetre, and kilogram per kilogram to gram per kilogram. */
  const Thousandfold: Affine := Affine(1000.0, 0.0)

  /** Converts an archive-native value (exact arithmetic). */
  function Apply(a: Affine, x: real): real {
    x * a.multiply + a.add
  }

  /** Recovers the archive-native value from a converted one; defined exactly
      when the conversion is invertible. */
  function Invert(a: Affine, y: real): (x: real)
    requires a.multiply != 0.0
    ensures Apply(a, x) == y
  {
    (y - a.add) / a.multiply
  }

  /** The conversion each storage unit requires from the archive's native
      unit, as a reference table keyed by unit. */
  function ConversionFor(u: SiUnit): (c: Option<Affine>)
    ensures c.Some? ==> c.value.multiply != 0.0
  {
    match u
    case Celsius => Some(KelvinToCelsius)
    case Hectopascal => Some(PascalToHectopascal)
    case Millimetre | GramPerKilogram => Some(Thousandfold)
    case _ => None
  }

  /** The interpolation policy each storage unit calls for, as a reference
      table keyed by unit: accumulated millimetres are summed backwards,
      percentages are clamped to 0...100, everything else is unbounded. */
  function InterpolationFor(u: SiUnit): ReaderInterpolation {
    match u
    case Millimetre => BackwardsSum
    case Percentage => Hermite(Some(PercentBounds))
    case _ => Hermite(None)
  }

  /** Converting and then inverting gives back the native value. */
  lemma InvertApply(a: Affine, x: real)
    requires a.multiply != 0.0
    ensures Invert(a, Apply(a, x)) == x
  {
  }
}

=== FILE: ecmwf_variable.dfy ===
/** The ECMWF open-data forecast variables as they appear in the GRIB2 files,
    and the per-variable lookup tables the downloader, the GRIB decoder and
    the time-series writer consult: unit, vertical level, GRIB short name,
    storage scale factor, unit conversion, interpolation policy and the
    ensemble, previous-forecast and elevation-correction flags.

    Each table is one exhaustive `match`, as in the source. The flag tables
    are stated against literal sets of the variables they select. The
    module also defines an independent view of the same data (the quantity
    family of a pressure-level variable, its member at each standard level
    and the per-quantity tables); the lemmas in the other modules state the
    tables against that view and against reference tables keyed by unit. */
module EcmwfVariables {
  import opened Optional
  import opened EcmwfTypes

  /** One case per ECMWF variable, named by its raw value. */
  datatype EcmwfVariable =
    | precipitation
    | runoff
    | soil_temperature_0_to_7cm
    | surface_temperature
    | geopotential_height_1000hPa
    | geopotential_height_925hPa
    | geopotential_height_850hPa
    | geopotential_height_700hPa
    | geopotential_height_500hPa
    | geopotential_height_300hPa
    | geopotential_height_250hPa
    | geopotential_height_200hPa
    | geopotential_height_50hPa
    | wind_v_component_1000hPa
    | wind_v_component_925hPa
    | wind_v_component_850hPa
    | wind_v_component_700hPa
    | wind_v_component_500hPa
    | wind_v_component_300hPa
    | wind_v_component_250hPa
    | wind_v_component_200hPa
    | wind_v_component_50hPa
    | wind_u_component_1000hPa
    | wind_u_component_925hPa
    | wind_u_component_850hPa
    | wind_u_component_700hPa
    | wind_u_component_500hPa
    | wind_u_component_300hPa
    | wind_u_component_250hPa
    | wind_u_component_200hPa
    | wind_u_component_50hPa
    | temperature_1000hPa
    | temperature_925hPa
    | temperature_850hPa
    | temperature_700hPa
    | temperature_500hPa
    | temperature_300hPa
    | temperature_250hPa
    | temperature_200hPa
    | temperature_50hPa
    | relative_humidity_1000hPa
    | relative_humidity_925hPa
    | relative_humidity_850hPa
    | relative_humidity_700hPa
    | relative_humidity_500hPa
    | relative_humidity_300hPa
    | relative_humidity_250hPa
    | relative_humidity_200hPa
    | relative_humidity_50hPa
    | surface_pressure
    | pressure_msl
    | total_column_integrated_water_vapour
    | wind_v_component_10m
    | wind_u_component_10m
    | specific_humidity_1000hPa
    | specific_humidity_925hPa
    | specific_humidity_850hPa
    | specific_humidity_700hPa
    | specific_humidity_500hPa
    | specific_humidity_300hPa
    | specific_humidity_250hPa
    | specific_humidity_200hPa
    | specific_humidity_50hPa
    | temperature_2m
    | relative_vorticity_1000hPa
    | relative_vorticity_925hPa
    | relative_vorticity_850hPa
    | relative_vorticity_700hPa
    | relative_vorticity_500hPa
    | relative_vorticity_300hPa
    | relative_vorticity_250hPa
    | relative_vorticity_200hPa
    | relative_vorticity_50hPa
    | divergence_of_wind_1000hPa
    | divergence_of_wind_925hPa
    | divergence_of_wind_850hPa
    | divergence_of_wind_700hPa
    | divergence_of_wind_500hPa
    | divergence_of_wind_300hPa
    | divergence_of_wind_250hPa
    | divergence_of_wind_200hPa
    | divergence_of_wind_50hPa
    | cloud_cover
    | cloud_cover_low
    | cloud_cover_mid
    | cloud_cover_high

  /** The physical quantity sampled at every standard pressure level. */
  datatype Quantity =
    | GeopotentialHeight
    | WindV
    | WindU
    | Temperature
    | RelativeHumidity
    | SpecificHumidity
    | RelativeVorticity
    | DivergenceOfWind

  /** A variable is either one pressure level of a quantity, or a
      single-level (surface, near-surface or column) field. */
  datatype Family = PressureLevel(quantity: Quantity) | SingleLevel

  /** The level of a variable in the GRIB files, if it has one. */
  datatype VerticalLevel = NoLevel | At(value: int)

  /** The standard pressure levels in hPa, top of the list nearest the ground. */
  const PressureLevels: seq<int> := [1000, 925, 850, 700, 500, 300, 250, 200, 50]

  /** The cloud-cover fields, computed while downloading rather than read from GRIB. */
  const CloudCover: set<EcmwfVariable> :=
    {cloud_cover, cloud_cover_low, cloud_cover_mid, cloud_cover_high}

  /** The variables downloaded and stored for the ensemble. */
  const EnsembleProcessed: set<EcmwfVariable> :=
    {precipitation, runoff, soil_temperature_0_to_7cm, surface_temperature,
     relative_humidity_1000hPa, surface_pressure, pressure_msl,
     wind_v_component_10m, wind_u_component_10m, temperature_2m, cloud_cover,
     temperature_500hPa, temperature_850hPa,
     geopotential_height_500hPa, geopotential_height_850hPa}

  /** The variables corrected for elevation. */
  const ElevationCorrectable: set<EcmwfVariable> :=
    {temperature_2m, surface_temperature, soil_temperature_0_to_7cm}

  /** The variables whose previous forecast run is kept. */
  const PreviousForecastStored: set<EcmwfVariable> :=
    {temperature_2m, relative_humidity_1000hPa, precipitation, pressure_msl,
     cloud_cover, wind_v_component_10m, wind_u_component_10m}

  /** The quantity family of a variable, read off its name. */
  function FamilyOf(v: EcmwfVariable): Family {
    match v
    case geopotential_height_1000hPa | geopotential_height_925hPa | geopotential_height_850hPa
      | geopotential_height_700hPa | geopotential_height_500hPa | geopotential_height_300hPa
      | geopotential_height_250hPa | geopotential_height_200hPa | geopotential_height_50hPa
      => PressureLevel(GeopotentialHeight)
    case wind_v_component_1000hPa | wind_v_component_925hPa | wind_v_component_850hPa
      | wind_v_component_700hPa | wind_v_component_500hPa | wind_v_component_300hPa
      | wind_v_component_250hPa | wind_v_component_200hPa | wind_v_component_50hPa
      => PressureLevel(WindV)
    case wind_u_component_1000hPa | wind_u_component_925hPa | wind_u_component_850hPa
      | wind_u_component_700hPa | wind_u_component_500hPa | wind_u_component_300hPa
      | wind_u_component_250hPa | wind_u_component_200hPa | wind_u_component_50hPa
      => PressureLevel(WindU)
    case temperature_1000hPa | temperature_925hPa | temperature_850hPa
      | temperature_700hPa | temperature_500hPa | temperature_300hPa
      | temperature_250hPa | temperature_200hPa | temperature_50hPa
      => PressureLevel(Temperature)
    case relative_humidity_1000hPa | relative_humidity_925hPa | relative_humidity_850hPa
      | relative_humidity_700hPa | relative_humidity_500hPa | relative_humidity_300hPa
      | relative_humidity_250hPa | relative_humidity_200hPa | relative_humidity_50hPa
      => PressureLevel(RelativeHumidity)
    case specific_humidity_1000hPa | specific_humidity_925hPa | specific_humidity_850hPa
      | specific_humidity_700hPa | specific_humidity_500hPa | specific_humidity_300hPa
      | specific_humidity_250hPa | specific_humidity_200hPa | specific_humidity_50hPa
      => PressureLevel(SpecificHumidity)
    case relative_vorticity_1000hPa | relative_vorticity_925hPa | relative_vorticity_850hPa
      | relative_vorticity_700hPa | relative_vorticity_500hPa | relative_vorticity_300hPa
      | relative_vorticity_250hPa | relative_vorticity_200hPa | relative_vorticity_50hPa
      => PressureLevel(RelativeVorticity)
    case divergence_of_wind_1000hPa | divergence_of_wind_925hPa | divergence_of_wind_850hPa
      | divergence_of_wind_700hPa | divergence_of_wind_500hPa | divergence_of_wind_300hPa
      | divergence_of_wind_250hPa | divergence_of_wind_200hPa | divergence_of_wind_50hPa
      => PressureLevel(DivergenceOfWind)
    case _ => SingleLevel
  }

  /** The GRIB short name shared by all levels of a quantity. */
  function ShortName(q: Quantity): string {
    match q
    case GeopotentialHeight => "gh"
    case WindV => "v"
    case WindU => "u"
    case Temperature => "t"
    case RelativeHumidity => "r"
    case SpecificHumidity => "q"
    case RelativeVorticity => "vo"
    case DivergenceOfWind => "d"
  }

  /** The storage unit shared by all levels of a quantity. */
  function QuantityUnit(q: Quantity): SiUnit {
    match q
    case GeopotentialHeight => Metre
    case WindV | WindU => MetrePerSecond
    case Temperature => Celsius
    case RelativeHumidity => Percentage
    case SpecificHumidity => GramPerKilogram
    case RelativeVorticity | DivergenceOfWind => PerSecond
  }

  /** The storage scale factor shared by all levels of a quantity. */
  function QuantityScaleFactor(q: Quantity): real {
    match q
    case GeopotentialHeight | RelativeHumidity => 1.0
    case WindV | WindU => 10.0
    case Temperature => 20.0
    case SpecificHumidity | RelativeVorticity | DivergenceOfWind => 100.0
  }

  /** The member of a quantity family at a standard pressure level: the
      inverse of `FamilyOf` and `Level` on pressure-level variables. */
  function PressureMember(q: Quantity, hPa: int): EcmwfVariable
    requires hPa in PressureLevels
  {
    match q
    case GeopotentialHeight =>
      if hPa == 1000 then geopotential_height_1000hPa
      else if hPa == 925 then geopotential_height_925hPa
      else if hPa == 850 then geopotential_height_850hPa
      else if hPa == 700 then geopotential_height_700hPa
      else if hPa == 500 then geopotential_height_500hPa
      else if hPa == 300 then geopotential_height_300hPa
      else if hPa == 250 then geopotential_height_250hPa
      else if hPa == 200 then geopotential_height_200hPa
      else geopotential_height_50hPa
    case WindV =>
      if hPa == 1000 then wind_v_component_1000hPa
      else if hPa == 925 then wind_v_component_925hPa
      else if hPa == 850 then wind_v_component_850hPa
      else if hPa == 700 then wind_v_component_700hPa
      else if hPa == 500 then wind_v_component_500hPa
      else if hPa == 300 then wind_v_component_300hPa
      else if hPa == 250 then wind_v_component_250hPa
      else if hPa == 200 then wind_v_component_200hPa
      else wind_v_component_50hPa
    case WindU =>
      if hPa == 1000 then wind_u_component_1000hPa
      else if hPa == 925 then wind_u_component_925hPa
      else if hPa == 850 then wind_u_component_850hPa
      else if hPa == 700 then wind_u_component_700hPa
      else if hPa == 500 then wind_u_component_500hPa
      else if hPa == 300 then wind_u_component_300hPa
      else if hPa == 250 then wind_u_component_250hPa
      else if hPa == 200 then wind_u_component_200hPa
      else wind_u_component_50hPa
    case Temperature =>
      if hPa == 1000 then temperature_1000hPa
      else if hPa == 925 then temperature_925hPa
      else if hPa == 850 then temperature_850hPa
      else if hPa == 700 then temperature_700hPa
      else if hPa == 500 then temperature_500hPa
      else if hPa == 300 then temperature_300hPa
      else if hPa == 250 then temperature_250hPa
      else if hPa == 200 then temperature_200hPa
      else temperature_50hPa
    case RelativeHumidity =>
      if hPa == 1000 then relative_humidity_1000hPa
      else if hPa == 925 then relative_humidity_925hPa
      else if hPa == 850 then relative_humidity_850hPa
      else if hPa == 700 then relative_humidity_700hPa
      else if hPa == 500 then relative_humidity_500hPa
      else if hPa == 300 then relative_humidity_300hPa
      else if hPa == 250 then relative_humidity_250hPa
      else if hPa == 200 then relative_humidity_200hPa
      else relative_humidity_50hPa
    case SpecificHumidity =>
      if hPa == 1000 then specific_humidity_1000hPa
      else if hPa == 925 then specific_humidity_925hPa
      else if hPa == 850 then specific_humidity_850hPa
      else if hPa == 700 then specific_humidity_700hPa
      else if hPa == 500 then specific_humidity_500hPa
      else if hPa == 300 then specific_humidity_300hPa
      else if hPa == 250 then specific_humidity_250hPa
      else if hPa == 200 then specific_humidity_200hPa
      else specific_humidity_50hPa
    case RelativeVorticity =>
      if hPa == 1000 then relative_vorticity_1000hPa
      else if hPa == 925 then relative_vorticity_925hPa
      else if hPa == 850 then relative_vorticity_850hPa
      else if hPa == 700 then relative_vorticity_700hPa
      else if hPa == 500 then relative_vorticity_500hPa
      else if hPa == 300 then relative_vorticity_300hPa
      else if hPa == 250 then relative_vorticity_250hPa
      else if hPa == 200 then relative_vorticity_200hPa
      else relative_vorticity_50hPa
    case DivergenceOfWind =>
      if hPa == 1000 then divergence_of_wind_1000hPa
      else if hPa == 925 then divergence_of_wind_925hPa
      else if hPa == 850 then divergence_of_wind_850hPa
      else if hPa == 700 then divergence_of_wind_700hPa
      else if hPa == 500 then divergence_of_wind_500hPa
      else if hPa == 300 then divergence_of_wind_300hPa
      else if hPa == 250 then divergence_of_wind_250hPa
      else if hPa == 200 then divergence_of_wind_200hPa
      else divergence_of_wind_50hPa
  }

  /** Whether the previous forecast run of the variable is kept for blending
      across model runs. */
  function StorePreviousForecast(v: EcmwfVariable): (r: bool)
    ensures r <==> v in PreviousForecastStored
  {
    match v
    case temperature_2m | relative_humidity_1000hPa => true
    case precipitation => true
    case pressure_msl => true
    case cloud_cover => true
    case wind_v_component_10m | wind_u_component_10m => true
    case _ => false
  }

  /** Whether, and how, the variable takes part in ensemble downloads. */
  function IncludeInEnsemble(v: EcmwfVariable): (r: Option<DownloadOrProcess>)
    ensures r == Some(DownloadAndProcess) <==> v in EnsembleProcessed
  {
    match v
    case precipitation | runoff | soil_temperature_0_to_7cm
      | surface_temperature | relative_humidity_1000hPa | surface_pressure
      | pressure_msl | wind_v_component_10m | wind_u_component_10m
      | temperature_2m | cloud_cover | temperature_500hPa | temperature_850hPa
      | geopotential_height_500hPa | geopotential_height_850hPa
      => Some(DownloadAndProcess)
    case relative_humidity_925hPa | relative_humidity_850hPa | relative_humidity_700hPa
      | relative_humidity_500hPa | relative_humidity_300hPa | relative_humidity_250hPa
      | relative_humidity_200hPa | relative_humidity_50hPa
      => Some(DownloadOnly)
    case _ => None
  }

  /** Whether the variable is corrected for the difference between model and
      target elevation: exactly the single-level temperatures. */
  function IsElevationCorrectable(v: EcmwfVariable): (r: bool)
    ensures r <==> v in ElevationCorrectable
  {
    v == temperature_2m || v == surface_temperature || v == soil_temperature_0_to_7cm
  }

  /** The name of the time-series file and its level: every variable has its
      own file at level 0. */
  function OmFileName(v: EcmwfVariable): (r: (string, int))
    ensures r.0 == NameInFiles(v)
    ensures r.1 == 0
  {
    (NameInFiles(v), 0)
  }

  /** The raw value of the variable, used as its file name. */
  function NameInFiles(v: EcmwfVariable): string {
    match v
    case precipitation => "precipitation"
    case runoff => "runoff"
    case soil_temperature_0_to_7cm => "soil_temperature_0_to_7cm"
    case surface_temperature => "surface_temperature"
    case geopotential_height_1000hPa => "geopotential_height_1000hPa"
    case geopotential_height_925hPa => "geopotential_height_925hPa"
    case geopotential_height_850hPa => "geopotential_height_850hPa"
    case geopotential_height_700hPa => "geopotential_height_700hPa"
    case geopotential_height_500hPa => "geopotential_height_500hPa"
    case geopotential_height_300hPa => "geopotential_height_300hPa"
    case geopotential_height_250hPa => "geopotential_height_250hPa"
    case geopotential_height_200hPa => "geopotential_height_200hPa"
    case geopotential_height_50hPa => "geopotential_height_50hPa"
    case wind_v_component_1000hPa => "wind_v_component_1000hPa"
    case wind_v_component_925hPa => "wind_v_component_925hPa"
    case wind_v_component_850hPa => "wind_v_component_850hPa"
    case wind_v_component_700hPa => "wind_v_component_700hPa"
    case wind_v_component_500hPa => "wind_v_component_500hPa"
    case wind_v_component_300hPa => "wind_v_component_300hPa"
    case wind_v_component_250hPa => "wind_v_component_250hPa"
    case wind_v_component_200hPa => "wind_v_component_200hPa"
    case wind_v_component_50hPa => "wind_v_component_50hPa"
    case wind_u_component_1000hPa => "wind_u_component_1000hPa"
    case wind_u_component_925hPa => "wind_u_component_925hPa"
    case wind_u_component_850hPa => "wind_u_component_850hPa"
    case wind_u_component_700hPa => "wind_u_component_700hPa"
    case wind_u_component_500hPa => "wind_u_component_500hPa"
    case wind_u_component_300hPa => "wind_u_component_300hPa"
    case wind_u_component_250hPa => "wind_u_component_250hPa"
    case wind_u_component_200hPa => "wind_u_component_200hPa"
    case wind_u_component_50hPa => "wind_u_component_50hPa"
    case temperature_1000hPa => "temperature_1000hPa"
    case temperature_925hPa => "temperature_925hPa"
    case temperature_850hPa => "temperature_850hPa"
    case temperature_700hPa => "temperature_700hPa"
    case temperature_500hPa => "temperature_500hPa"
    case temperature_300hPa => "temperature_300hPa"
    case temperature_250hPa => "temperature_250hPa"
    case temperature_200hPa => "temperature_200hPa"
    case temperature_50hPa => "temperature_50hPa"
    case relative_humidity_1000hPa => "relative_humidity_1000hPa"
    case relative_humidity_925hPa => "relative_humidity_925hPa"
    case relative_humidity_850hPa => "relative_humidity_850hPa"
    case relative_humidity_700hPa => "relative_humidity_700hPa"
    case relative_humidity_500hPa => "relative_humidity_500hPa"
    case relative_humidity_300hPa => "relative_humidity_300hPa"
    case relative_humidity_250hPa => "relative_humidity_250hPa"
    case relative_humidity_200hPa => "relative_humidity_200hPa"
    case relative_humidity_50hPa => "relative_humidity_50hPa"
    case surface_pressure => "surface_pressure"
    case pressure_msl => "pressure_msl"
    case total_column_integrated_water_vapour => "total_column_integrated_water_vapour"
    case wind_v_component_10m => "wind_v_component_10m"
    case wind_u_component_10m => "wind_u_component_10m"
    case specific_humidity_1000hPa => "specific_humidity_1000hPa"
    case specific_humidity_925hPa => "specific_humidity_925hPa"
    case specific_humidity_850hPa => "specific_humidity_850hPa"
    case specific_humidity_700hPa => "specific_humidity_700hPa"
    case specific_humidity_500hPa => "specific_humidity_500hPa"
    case specific_humidity_300hPa => "specific_humidity_300hPa"
    case specific_humidity_250hPa => "specific_humidity_250hPa"
    case specific_humidity_200hPa => "specific_humidity_200hPa"
    case specific_humidity_50hPa => "specific_humidity_50hPa"
    case temperature_2m => "temperature_2m"
    case relative_vorticity_1000hPa => "relative_vorticity_1000hPa"
    case relative_vorticity_925hPa => "relative_vorticity_925hPa"
    case relative_vorticity_850hPa => "relative_vorticity_850hPa"
    case relative_vorticity_700hPa => "relative_vorticity_700hPa"
    case relative_vorticity_500hPa => "relative_vorticity_500hPa"
    case relative_vorticity_300hPa => "relative_vorticity_300hPa"
    case relative_vorticity_250hPa => "relative_vorticity_250hPa"
    case relative_vorticity_200hPa => "relative_vorticity_200hPa"
    case relative_vorticity_50hPa => "relative_vorticity_50hPa"
    case divergence_of_wind_1000hPa => "divergence_of_wind_1000hPa"
    case divergence_of_wind_925hPa => "divergence_of_wind_925hPa"
    case divergence_of_wind_850hPa => "divergence_of_wind_850hPa"
    case divergence_of_wind_700hPa => "divergence_of_wind_700hPa"
    case divergence_of_wind_500hPa => "divergence_of_wind_500hPa"
    case divergence_of_wind_300hPa => "divergence_of_wind_300hPa"
    case divergence_of_wind_250hPa => "divergence_of_wind_250hPa"
    case divergence_of_wind_200hPa => "divergence_of_wind_200hPa"
    case divergence_of_wind_50hPa => "divergence_of_wind_50hPa"
    case cloud_cover => "cloud_cover"
    case cloud_cover_low => "cloud_cover_low"
    case cloud_cover_mid => "cloud_cover_mid"
    case cloud_cover_high => "cloud_cover_high"
  }

  /** ECMWF variables are never offset-corrected when mixed with other models. */
  function RequiresOffsetCorrectionForMixing(v: EcmwfVariable): (r: bool)
    ensures !r
  {
    false
  }

  /** The unit the variable is stored in. */
  function Unit(v: EcmwfVariable): (r: SiUnit)
  {
    match v
    case precipitation | runoff => Millimetre
    case soil_temperature_0_to_7cm | surface_temperature => Celsius
    case geopotential_height_1000hPa | geopotential_height_925hPa | geopotential_height_850hPa
      | geopotential_height_700hPa | geopotential_height_500hPa | geopotential_height_300hPa
      | geopotential_height_250hPa | geopotential_height_200hPa | geopotential_height_50hPa
      => Metre
    case wind_v_component_1000hPa | wind_v_component_925hPa | wind_v_component_850hPa
      | wind_v_component_700hPa | wind_v_component_500hPa | wind_v_component_300hPa
      | wind_v_component_250hPa | wind_v_component_200hPa | wind_v_component_50hPa
      | wind_u_component_1000hPa | wind_u_component_925hPa | wind_u_component_850hPa
      | wind_u_component_700hPa | wind_u_component_500hPa | wind_u_component_300hPa
      | wind_u_component_250hPa | wind_u_component_200hPa | wind_u_component_50hPa
      => MetrePerSecond
    case temperature_1000hPa | temperature_925hPa | temperature_850hPa
      | temperature_700hPa | temperature_500hPa | temperature_300hPa
      | temperature_250hPa | temperature_200hPa | temperature_50hPa
      => Celsius
    case relative_humidity_1000hPa | relative_humidity_925hPa | relative_humidity_850hPa
      | relative_humidity_700hPa | relative_humidity_500hPa | relative_humidity_300hPa
      | relative_humidity_250hPa | relative_humidity_200hPa | relative_humidity_50hPa
      => Percentage
    case surface_pressure => Hectopascal
    case pressure_msl => Hectopascal
    case total_column_integrated_water_vapour => KilogramPerSquareMetre
    case wind_v_component_10m => MetrePerSecond
    case wind_u_component_10m => MetrePerSecond
    case specific_humidity_1000hPa | specific_humidity_925hPa | specific_humidity_850hPa
      | specific_humidity_700hPa | specific_humidity_500hPa | specific_humidity_300hPa
      | specific_humidity_250hPa | specific_humidity_200hPa | specific_humidity_50hPa
      => GramPerKilogram
    case temperature_2m => Celsius
    case relative_vorticity_1000hPa | relative_vorticity_925hPa | relative_vorticity_850hPa
      | relative_vorticity_700hPa | relative_vorticity_500hPa | relative_vorticity_300hPa
      | relative_vorticity_250hPa | relative_vorticity_200hPa | relative_vorticity_50hPa
      => PerSecond
    case divergence_of_wind_1000hPa | divergence_of_wind_925hPa | divergence_of_wind_850hPa
      | divergence_of_wind_700hPa | divergence_of_wind_500hPa | divergence_of_wind_300hPa
      | divergence_of_wind_250hPa | divergence_of_wind_200hPa | divergence_of_wind_50hPa
      => PerSecond
    case cloud_cover => Percentage
    case cloud_cover_low => Percentage
    case cloud_cover_mid => Percentage
    case cloud_cover_high => Percentage
  }

  /** The level of the variable in the GRIB files: the pressure in hPa for
      pressure-level fields, the height in metres for 10 m winds and 2 m
      temperature, 0 for the top soil layer, and none otherwise. */
  function Level(v: EcmwfVariable): VerticalLevel
  {
    match v
    case precipitation => NoLevel
    case runoff => NoLevel
    case soil_temperature_0_to_7cm => At(0)
    case surface_temperature => NoLevel
    case geopotential_height_1000hPa => At(1000)
    case geopotential_height_925hPa => At(925)
    case geopotential_height_850hPa => At(850)
    case geopotential_height_700hPa => At(700)
    case geopotential_height_500hPa => At(500)
    case geopotential_height_300hPa => At(300)
    case geopotential_height_250hPa => At(250)
    case geopotential_height_200hPa => At(200)
    case geopotential_height_50hPa => At(50)
    case wind_v_component_1000hPa => At(1000)
    case wind_v_component_925hPa => At(925)
    case wind_v_component_850hPa => At(850)
    case wind_v_component_700hPa => At(700)
    case wind_v_component_500hPa => At(500)
    case wind_v_component_300hPa => At(300)
    case wind_v_component_250hPa => At(250)
    case wind_v_component_200hPa => At(200)
    case wind_v_component_50hPa => At(50)
    case wind_u_component_1000hPa => At(1000)
    case wind_u_component_925hPa => At(925)
    case wind_u_component_850hPa => At(850)
    case wind_u_component_700hPa => At(700)
    case wind_u_component_500hPa => At(500)
    case wind_u_component_300hPa => At(300)
    case wind_u_component_250hPa => At(250)
    case wind_u_component_200hPa => At(200)
    case wind_u_component_50hPa => At(50)
    case temperature_1000hPa => At(1000)
    case temperature_925hPa => At(925)
    case temperature_850hPa => At(850)
    case temperature_700hPa => At(700)
    case temperature_500hPa => At(500)
    case temperature_300hPa => At(300)
    case temperature_250hPa => At(250)
    case temperature_200hPa => At(200)
    case temperature_50hPa => At(50)
    case relative_humidity_1000hPa => At(1000)
    case relative_humidity_925hPa => At(925)
    case relative_humidity_850hPa => At(850)
    case relative_humidity_700hPa => At(700)
    case relative_humidity_500hPa => At(500)
    case relative_humidity_300hPa => At(300)
    case relative_humidity_250hPa => At(250)
    case relative_humidity_200hPa => At(200)
    case relative_humidity_50hPa => At(50)
    case surface_pressure => NoLevel
    case pressure_msl => NoLevel
    case total_column_integrated_water_vapour => NoLevel
    case wind_v_component_10m => At(10)
    case wind_u_component_10m => At(10)
    case specific_humidity_1000hPa => At(1000)
    case specific_humidity_925hPa => At(925)
    case specific_humidity_850hPa => At(850)
    case specific_humidity_700hPa => At(700)
    case specific_humidity_500hPa => At(500)
    case specific_humidity_300hPa => At(300)
    case specific_humidity_250hPa => At(250)
    case specific_humidity_200hPa => At(200)
    case specific_humidity_50hPa => At(50)
    case temperature_2m => At(2)
    case relative_vorticity_1000hPa => At(1000)
    case relative_vorticity_925hPa => At(925)
    case relative_vorticity_850hPa => At(850)
    case relative_vorticity_700hPa => At(700)
    case relative_vorticity_500hPa => At(500)
    case relative_vorticity_300hPa => At(300)
    case relative_vorticity_250hPa => At(250)
    case relative_vorticity_200hPa => At(200)
    case relative_vorticity_50hPa => At(50)
    case divergence_of_wind_1000hPa => At(1000)
    case divergence_of_wind_925hPa => At(925)
    case divergence_of_wind_850hPa => At(850)
    case divergence_of_wind_700hPa => At(700)
    case divergence_of_wind_500hPa => At(500)
    case divergence_of_wind_300hPa => At(300)
    case divergence_of_wind_250hPa => At(250)
    case divergence_of_wind_200hPa => At(200)
    case divergence_of_wind_50hPa => At(50)
    case cloud_cover => NoLevel
    case cloud_cover_low => NoLevel
    case cloud_cover_mid => NoLevel
    case cloud_cover_high => NoLevel
  }

  /** The GRIB short name under which the variable is published; none for
      the cloud-cover fields, which are computed while downloading. */
  function GribName(v: EcmwfVariable): (r: Option<string>)
    ensures r.None? <==> v in CloudCover
  {
    match v
    case precipitation => Some("tp")
    case runoff => Some("ro")
    case soil_temperature_0_to_7cm => Some("st")
    case surface_temperature => Some("skt")
    case geopotential_height_1000hPa | geopotential_height_925hPa | geopotential_height_850hPa
      | geopotential_height_700hPa | geopotential_height_500hPa | geopotential_height_300hPa
      | geopotential_height_250hPa | geopotential_height_200hPa | geopotential_height_50hPa
      => Some("gh")
    case wind_v_component_1000hPa | wind_v_component_925hPa | wind_v_component_850hPa
      | wind_v_component_700hPa | wind_v_component_500hPa | wind_v_component_300hPa
      | wind_v_component_250hPa | wind_v_component_200hPa | wind_v_component_50hPa
      => Some("v")
    case wind_u_component_1000hPa | wind_u_component_925hPa | wind_u_component_850hPa
      | wind_u_component_700hPa | wind_u_component_500hPa | wind_u_component_300hPa
      | wind_u_component_250hPa | wind_u_component_200hPa | wind_u_component_50hPa
      => Some("u")
    case temperature_1000hPa | temperature_925hPa | temperature_850hPa
      | temperature_700hPa | temperature_500hPa | temperature_300hPa
      | temperature_250hPa | temperature_200hPa | temperature_50hPa
      => Some("t")
    case relative_humidity_1000hPa | relative_humidity_925hPa | relative_humidity_850hPa
      | relative_humidity_700hPa | relative_humidity_500hPa | relative_humidity_300hPa
      | relative_humidity_250hPa | relative_humidity_200hPa | relative_humidity_50hPa
      => Some("r")
    case surface_pressure => Some("sp")
    case pressure_msl => Some("msl")
    case total_column_integrated_water_vapour => Some("tcwv")
    case wind_v_component_10m => Some("10v")
    case wind_u_component_10m => Some("10u")
    case specific_humidity_1000hPa | specific_humidity_925hPa | specific_humidity_850hPa
      | specific_humidity_700hPa | specific_humidity_500hPa | specific_humidity_300hPa
      | specific_humidity_250hPa | specific_humidity_200hPa | specific_humidity_50hPa
      => Some("q")
    case temperature_2m => Some("2t")
    case relative_vorticity_1000hPa | relative_vorticity_925hPa | relative_vorticity_850hPa
      | relative_vorticity_700hPa | relative_vorticity_500hPa | relative_vorticity_300hPa
      | relative_vorticity_250hPa | relative_vorticity_200hPa | relative_vorticity_50hPa
      => Some("vo")
    case divergence_of_wind_1000hPa | divergence_of_wind_925hPa | divergence_of_wind_850hPa
      | divergence_of_wind_700hPa | divergence_of_wind_500hPa | divergence_of_wind_300hPa
      | divergence_of_wind_250hPa | divergence_of_wind_200hPa | divergence_of_wind_50hPa
      => Some("d")
    case cloud_cover => None
    case cloud_cover_low => None
    case cloud_cover_mid => None
    case cloud_cover_high => None
  }

  /** The factor a value is multiplied by before it is rounded for storage. */
  function ScaleFactor(v: EcmwfVariable): (r: real)
    ensures r > 0.0
    ensures r in {1.0, 10.0, 20.0, 100.0}
  {
    match v
    case precipitation | runoff => 10.0
    case soil_temperature_0_to_7cm => 20.0
    case surface_temperature => 20.0
    case geopotential_height_1000hPa | geopotential_height_925hPa | geopotential_height_850hPa
      | geopotential_height_700hPa | geopotential_height_500hPa | geopotential_height_300hPa
      | geopotential_height_250hPa | geopotential_height_200hPa | geopotential_height_50hPa
      => 1.0
    case wind_v_component_1000hPa | wind_v_component_925hPa | wind_v_component_850hPa
      | wind_v_component_700hPa | wind_v_component_500hPa | wind_v_component_300hPa
      | wind_v_component_250hPa | wind_v_component_200hPa | wind_v_component_50hPa
      => 10.0
    case wind_u_component_1000hPa | wind_u_component_925hPa | wind_u_component_850hPa
      | wind_u_component_700hPa | wind_u_component_500hPa | wind_u_component_300hPa
      | wind_u_component_250hPa | wind_u_component_200hPa | wind_u_component_50hPa
      => 10.0
    case temperature_1000hPa | temperature_925hPa | temperature_850hPa
      | temperature_700hPa | temperature_500hPa | temperature_300hPa
      | temperature_250hPa | temperature_200hPa | temperature_50hPa
      => 20.0
    case relative_humidity_1000hPa | relative_humidity_925hPa | relative_humidity_850hPa
      | relative_humidity_700hPa | relative_humidity_500hPa | relative_humidity_300hPa
      | relative_humidity_250hPa | relative_humidity_200hPa | relative_humidity_50hPa
      => 1.0
    case surface_pressure => 10.0
    case pressure_msl => 10.0
    case total_column_integrated_water_vapour => 10.0
    case wind_v_component_10m => 10.0
    case wind_u_component_10m => 10.0
    case specific_humidity_1000hPa | specific_humidity_925hPa | specific_humidity_850hPa
      | specific_humidity_700hPa | specific_humidity_500hPa | specific_humidity_300hPa
      | specific_humidity_250hPa | specific_humidity_200hPa | specific_humidity_50hPa
      => 100.0
    case temperature_2m => 20.0
    case relative_vorticity_1000hPa | relative_vorticity_925hPa | relative_vorticity_850hPa
      | relative_vorticity_700hPa | relative_vorticity_500hPa | relative_vorticity_300hPa
      | relative_vorticity_250hPa | relative_vorticity_200hPa | relative_vorticity_50hPa
      => 100.0
    case divergence_of_wind_1000hPa | divergence_of_wind_925hPa | divergence_of_wind_850hPa
      | divergence_of_wind_700hPa | divergence_of_wind_500hPa | divergence_of_wind_300hPa
      | divergence_of_wind_250hPa | divergence_of_wind_200hPa | divergence_of_wind_50hPa
      => 100.0
    case cloud_cover => 1.0
    case cloud_cover_low => 1.0
    case cloud_cover_mid => 1.0
    case cloud_cover_high => 1.0
  }

  /** The affine conversion from the archive's native unit to the storage
      unit, if one is needed. It is the one the storage unit calls for. */
  function MultiplyAdd(v: EcmwfVariable): (r: Option<Affine>)
    ensures r.Some? ==> r.value.multiply != 0.0
  {
    match v
    case surface_temperature | soil_temperature_0_to_7cm
      | temperature_1000hPa | temperature_925hPa | temperature_850hPa
      | temperature_700hPa | temperature_500hPa | temperature_300hPa
      | temperature_250hPa | temperature_200hPa | temperature_50hPa
      | temperature_2m
      => Some(KelvinToCelsius)
    case pressure_msl => Some(PascalToHectopascal)
    case surface_pressure => Some(PascalToHectopascal)
    case precipitation | runoff => Some(Thousandfold)
    case specific_humidity_1000hPa | specific_humidity_925hPa | specific_humidity_850hPa
      | specific_humidity_700hPa | specific_humidity_500hPa | specific_humidity_300hPa
      | specific_humidity_250hPa | specific_humidity_200hPa | specific_humidity_50hPa
      => Some(Thousandfold)
    case _ => None
  }

  /** How the variable is resampled in time: accumulated fields are summed
      backwards, percentages are interpolated within 0...100, everything else
      is interpolated without bounds. */
  function Interpolation(v: EcmwfVariable): (r: ReaderInterpolation)
    ensures r.BackwardsSum? <==> v == precipitation || v == runoff
    ensures r.Hermite? && r.bounds.Some? ==> r.bounds.value == PercentBounds
  {
    match v
    case precipitation | runoff => BackwardsSum
    case cloud_cover | cloud_cover_low | cloud_cover_mid | cloud_cover_high
      | relative_humidity_1000hPa | relative_humidity_925hPa | relative_humidity_850hPa
      | relative_humidity_700hPa | relative_humidity_500hPa | relative_humidity_300hPa
      | relative_humidity_250hPa | relative_humidity_200hPa | relative_humidity_50hPa
      => Hermite(Some(PercentBounds))
    case _ => Hermite(None)
  }
}

=== FILE: ecmwf_variable_derived.dfy ===
/** The derived ECMWF variables: names that are not downloaded as such but
    computed from, or aliased to, the stored variables (wind speed and
    direction, dew point, apparent temperature, legacy spellings, ...). The
    enumeration carries no derivation rule; it only declares that none of its
    members needs an offset correction when mixed with another model. */
module EcmwfDerived {

  datatype EcmwfVariableDerived =
    | relativehumidity_2m
    | relative_humidity_2m
    | dewpoint_2m
    | dew_point_2m
    | apparent_temperature
    | vapor_pressure_deficit
    | vapour_pressure_deficit
    | windspeed_10m
    | windspeed_1000hPa
    | windspeed_925hPa
    | windspeed_850hPa
    | windspeed_700hPa
    | windspeed_500hPa
    | windspeed_300hPa
    | windspeed_250hPa
    | windspeed_200hPa
    | windspeed_50hPa
    | wind_speed_10m
    | wind_speed_1000hPa
    | wind_speed_925hPa
    | wind_speed_850hPa
    | wind_speed_700hPa
    | wind_speed_500hPa
    | wind_speed_300hPa
    | wind_speed_250hPa
    | wind_speed_200hPa
    | wind_speed_50hPa
    | winddirection_10m
    | winddirection_1000hPa
    | winddirection_925hPa
    | winddirection_850hPa
    | winddirection_700hPa
    | winddirection_500hPa
    | winddirection_300hPa
    | winddirection_250hPa
    | winddirection_200hPa
    | winddirection_50hPa
    | wind_direction_10m
    | wind_direction_1000hPa
    | wind_direction_925hPa
    | wind_direction_850hPa
    | wind_direction_700hPa
    | wind_direction_500hPa
    | wind_direction_300hPa
    | wind_direction_250hPa
    | wind_direction_200hPa
    | wind_direction_50hPa
    | cloudcover_1000hPa
    | cloudcover_925hPa
    | cloudcover_850hPa
    | cloudcover_700hPa
    | cloudcover_500hPa
    | cloudcover_300hPa
    | cloudcover_250hPa
    | cloudcover_200hPa
    | cloudcover_50hPa
    | cloud_cover_1000hPa
    | cloud_cover_925hPa
    | cloud_cover_850hPa
    | cloud_cover_700hPa
    | cloud_cover_500hPa
    | cloud_cover_300hPa
    | cloud_cover_250hPa
    | cloud_cover_200hPa
    | cloud_cover_50hPa
    | relativehumidity_1000hPa
    | relativehumidity_925hPa
    | relativehumidity_850hPa
    | relativehumidity_700hPa
    | relativehumidity_500hPa
    | relativehumidity_300hPa
    | relativehumidity_250hPa
    | relativehumidity_200hPa
    | relativehumidity_50hPa
    | dewpoint_1000hPa
    | dewpoint_925hPa
    | dewpoint_850hPa
    | dewpoint_700hPa
    | dewpoint_500hPa
    | dewpoint_300hPa
    | dewpoint_250hPa
    | dewpoint_200hPa
    | dewpoint_50hPa
    | dew_point_1000hPa
    | dew_point_925hPa
    | dew_point_850hPa
    | dew_point_700hPa
    | dew_point_500hPa
    | dew_point_300hPa
    | dew_point_250hPa
    | dew_point_200hPa
    | dew_point_50hPa
    | soil_temperature_0_7cm
    | soil_temperature_0_10cm
    | soil_temperature_0_to_10cm
    | weathercode
    | weather_code
    | snowfall
    | is_day
    | surface_air_pressure
    | skin_temperature
    | soil_temperature_0cm
    | rain
    | wet_bulb_temperature_2m
    | cloudcover
    | cloudcover_low
    | cloudcover_mid
    | cloudcover_high

  /** No derived variable needs an offset correction when it is mixed with
      another model. */
  function RequiresOffsetCorrectionForMixing(d: EcmwfVariableDerived): (r: bool)
    ensures !r
  {
    false
  }
}

=== FILE: optional.dfy ===
/** The optional-value type used wherever the registry answers "not present"
    (Swift's `T?`). */
module Optional {

  datatype Option<+T> = None | Some(value: T)
}
